=== FILE: README.md ===
# Todo client: verified model of its decision logic

This project models, in Dafny, the logic of a single-page todo client that
sits between its React components and two libraries (an HTTP client and a
query cache). It covers:

- the todo domain types;
- how a list request is turned into query parameters, and the bearer-header rule;
- the status toggle and the two different payloads it is sent with;
- which query-cache entries each mutation and each push message invalidates or removes;
- the session-token lifecycle (sign-in, refresh, logout, current-user error, page load);
- the create form, the filter bar, the home page's page/filter state, the
  list view's pagination and the detail page's edit mode, each written as
  a pure transition.

Everything is an immutable datatype and a pure function. Network
responses, `window.confirm` and mutation outcomes are inputs.

Modules, one per source file or concept:

| file | module | models |
|---|---|---|
| wrappers.dfy | `Wrappers` | `Option`, `Result` |
| decimal.dfy | `Decimal` | `Number.prototype.toString` on whole numbers below 10^21 and its inverse |
| text.dfy | `Text` | `String.prototype.trim` |
| todo_types.dfy | `TodoTypes` | `src/types/todo.ts` |
| session_store.dfy | `SessionStore` | `localStorage` as a string map with the two token keys |
| api.dfy | `Api` | `src/lib/api.ts` |
| query_cache.dfy | `QueryCache` | query keys, prefix matching, invalidate / remove / set |
| todo_queries.dfy | `TodoQueries` | `src/hooks/useTodos.ts` |
| push_updates.dfy | `PushUpdates` | the message handler and send guard of `src/hooks/useWebSocket.ts` |
| auth_session.dfy | `AuthSession` | `src/hooks/useAuth.ts`, `src/components/AuthContext.tsx`, `src/main.tsx` |
| create_form.dfy | `CreateForm` | `src/components/TodoForm.tsx` |
| filter_bar.dfy | `FilterBar` | `src/components/SearchAndFilter.tsx` |
| home_page.dfy | `HomePage` | `src/pages/HomePage.tsx` |
| todo_list_view.dfy | `TodoListView` | `src/components/TodoList.tsx` |
| todo_details_view.dfy | `TodoDetailsView` | `src/components/TodoDetails.tsx` |

Modelling choices:

- **JavaScript truthiness.** `if (token)` is false for a missing token and
  for the empty string. `SessionStore.HasAuthToken` therefore means "a
  non-empty `auth_token` is stored". The header rule, the load check and
  the current-user guard all test this.
- **Optional and nullable JSON fields.** A field declared `x?: T | null`
  is a `Field<T>`: `Absent`, `Null` or `Present(v)`. Leaving a key out and
  sending `null` put different bodies on the wire. The two also compare
  differently (`updatedAt !== createdAt`). A field declared `x?: T` is an
  `Option<T>`.
- **The query cache.** It is a map from `QueryKey` to `Fresh`/`Stale`.
  The library itself is not modelled. One behaviour of it is an assumption
  of this model (`QueryCache.Matches`): a key filter selects every key
  whose array begins with the filter's elements. Under that assumption,
  `["todos"]` selects every `["todos", page, filters]` key and nothing
  else, and `["todo", id]` selects one detail key. Both facts are proved.
- **Trim.** `Text.Trim` strips exactly what ECMAScript's
  `String.prototype.trim` strips: the WhiteSpace set (TAB, VT, FF, ZWNBSP
  and every Unicode space separator) and the LineTerminator set (LF, CR,
  U+2028, U+2029).
- **Runtime shape of list filters.** `useTodos` declares its filter
  argument with a `status` field. Every caller passes `{search, completed}`,
  and `getTodos` reads `completed`. The model uses the runtime shape,
  `TodoTypes.Filters`.

Behaviour of the code that the model keeps as written:

- A current-user error of any kind, not only a 401, removes both tokens
  (src/components/AuthContext.tsx:29-36).
- The client does not filter the list by owner and recomputes no
  pagination totals; it shows what the server returns.
- The current-user request does no local check of the token's structure or
  expiry. The only guard is "a token is stored"
  (src/hooks/useAuth.ts:41-47).
- The page load removes the tokens whenever a non-empty access token is
  stored. An empty-string token is read as "no token" and stays
  (`AuthSession.LoneRefreshTokenSurvives`).

## Model

| member | source | states |
|---|---|---|
| `TodoTypes.StatusNameRoundTrip` | src/types/todo.ts:9 | A status is one of TODO, IN_PROGRESS, COMPLETED; its wire name reads back as the same status, and only that name does |
| `TodoTypes.PriorityNameRoundTrip` | src/types/todo.ts:8 | A priority is one of LOW, MEDIUM, HIGH; its wire name reads back as the same priority, and only that name does |
| `TodoTypes.ParseStatus` | src/types/todo.ts:9 | A status string is accepted exactly when it is one of the three wire names |
| `TodoTypes.ParsePriority` | src/types/todo.ts:8 | A priority string is accepted exactly when it is one of the three wire names |
| `TodoTypes.ParseCompleted` | src/types/todo.ts:69 | The `completed` filter accepts exactly "all", "complete" and "incomplete" |
| `TodoTypes.CompletedNameRoundTrip` | src/types/todo.ts:67-70 | Each `completed` value reads back from its name, and only from it |
| `TodoTypes.NameOnly` | src/types/todo.ts:21-36 | A create body can carry just a name: every other field is optional |
| `TodoTypes.CreateKeysSerialised` | src/types/todo.ts:21-36 | A create body always sends `name`; a nullable field is sent, as `null` or a value, unless it is left out; an optional field is sent exactly when it holds a value |
| `TodoTypes.StatusOnly` | src/types/todo.ts:38-53 | An update body can carry the status alone |
| `TodoTypes.UpdateKeysSerialised` | src/types/todo.ts:38-53 | An update body sends each key by the same rule, `name` included, and the empty patch sends no key at all |
| `Decimal.IntToString` | src/lib/api.ts:35-38 | A number's text starts with a minus sign exactly when the number is negative |
| `Decimal.NatToString` | src/lib/api.ts:35-38 | The text of a non-negative number is digits only, with no leading zero |
| `Decimal.NatToStringRoundTrip` | src/lib/api.ts:35-38 | The digits written for a natural number read back as that number |
| `Decimal.IntToStringRoundTrip` | src/lib/api.ts:35-38 | Any page or limit number written as text reads back as the same integer |
| `Decimal.IntToStringInjective` | src/lib/api.ts:35-38 | Distinct page numbers produce distinct `page` values |
| `Decimal.ParseInt` | src/lib/api.ts:35-38 | Reading a number back accepts only non-empty text, and a negative result only after a minus sign |
| `SessionStore.GetItem` | src/lib/api.ts:21 | A read of storage finds a value exactly when the key is stored, and it is the stored value |
| `SessionStore.StoreTokens` | src/hooks/useAuth.ts:15-16 | Storing the tokens writes both keys and leaves every other stored item alone |
| `SessionStore.RemoveTokens` | src/hooks/useAuth.ts:72-73 | Removing the tokens deletes exactly the two token keys and keeps every other item |
| `SessionStore.RemoveTokensAbsorbs` | src/components/AuthContext.tsx:31-33 | Removing tokens twice is removing once, and removal erases a previous sign-in completely |
| `Api.Intercept` | src/lib/api.ts:20-25 | With a non-empty stored token, `Authorization` becomes "Bearer " + token; without one the headers are unchanged; no other header is touched |
| `Api.BearerToken` | src/lib/api.ts:23 | A token read out of an `Authorization` value is exactly what follows "Bearer " |
| `Api.AuthorizationCarriesStoredToken` | src/lib/api.ts:20-25 | A fresh request has the header exactly when a token is stored, and the header carries that token |
| `Api.SearchTerm` | src/lib/api.ts:40-42 | A search is sent exactly when the filters hold a non-empty search string, and it is that string verbatim |
| `Api.RequestedStatus` | src/lib/api.ts:44-49 | "complete" asks for COMPLETED and "incomplete" for TODO; nothing is asked for absent filters, an absent `completed` or "all"; IN_PROGRESS is never requested |
| `Api.ListParams` | src/lib/api.ts:30-49 | The parameters start with page (default 1) and limit (default 10) as decimal text, then at most search and status, in that order, with no repeats; a status value is COMPLETED or TODO |
| `Api.ListParamsShape` | src/lib/api.ts:35-49 | The parameter list is page, limit, then search if it applies, then status if it applies |
| `Api.DecodeAssembled` | src/lib/api.ts:35-49 | Reading back page, limit, an optional search and an optional status, in that order, recovers exactly those four values |
| `Api.ListParamsRoundTrip` | src/lib/api.ts:30-53 | A server reading the parameters recovers the page and limit (with defaults), the search term, and "complete" as COMPLETED and "incomplete" as TODO |
| `Api.TaskIdOf` | src/lib/api.ts:56-57 | A path addresses a task only when it is "/tasks/" followed by that id |
| `Api.PathAddressesTask` | src/lib/api.ts:51-104 | Get, update and delete address `/tasks/{id}` for their own id; list and create address the collection |
| `Api.Path` | src/lib/api.ts:51-91 | Every request path lies under "/tasks"; list and create use "/tasks" itself and the calls on one task a longer path |
| `Api.Method` | src/lib/api.ts:51-91 | List and get are GETs, create is a POST, update is a PATCH (never a PUT) and delete is a DELETE |
| `Api.UpdateOutcome` | src/lib/api.ts:68-86 | An update resolves with the server's todo, or rejects with the original error unchanged |
| `Api.DeleteOutcome` | src/lib/api.ts:89-104 | A delete resolves with no value exactly when the request succeeded, and otherwise rejects with the original error |
| `TodoQueries.OutcomeDecidesSettle` | src/lib/api.ts:68-104 | A rejected update or delete hands the caller the server's own error and leaves the cache unchanged; a resolved one runs the success handler |
| `QueryCache.PartsInjective` | src/hooks/useTodos.ts:13-21 | Distinct query keys are distinct key arrays, so they are served from distinct cache slots |
| `QueryCache.AllListsSelectsLists` | src/hooks/useTodos.ts:34 | Invalidating `["todos"]` selects every list key, whatever its page and filters, and no detail or user key |
| `QueryCache.DetailOfSelectsOne` | src/hooks/useTodos.ts:52 | The filter `["todo", id]` selects exactly the detail key of that id |
| `QueryCache.Apply` | src/hooks/useTodos.ts:34 | Invalidate marks the selected entries stale and remove drops them; neither creates entries nor touches unselected ones |
| `QueryCache.ApplyAll` | src/hooks/useTodos.ts:50-53 | A run of cache operations creates no entries, leaves an entry no operation selects untouched, and drops nothing if it only invalidates |
| `QueryCache.SetData` | src/hooks/useAuth.ts:17 | Setting query data makes that entry fresh and leaves every other entry alone |
| `QueryCache.ApplyIdempotent` | src/hooks/useWebSocket.ts:31-44 | Repeating an invalidation or a removal changes nothing further |
| `QueryCache.InvalidationsCommute` | src/hooks/useTodos.ts:51-52 | Two invalidations give the same cache in either order |
| `TodoQueries.ListQueryFor` | src/hooks/useTodos.ts:5-17 | The list query's key is `["todos", page, filters]`; its request asks for that page with limit "10" and carries the search and status that the key's filters select |
| `TodoQueries.DetailQueryFor` | src/hooks/useTodos.ts:19-26 | The detail query's key is `["todo", id]`, which the list filter does not select; the query is enabled exactly for a non-empty id |
| `TodoQueries.Toggle` | src/hooks/useTodos.ts:79 | The toggle never yields IN_PROGRESS, and yields TODO exactly for COMPLETED |
| `TodoQueries.ToggleTwice` | src/hooks/useTodos.ts:79 | Toggling twice restores TODO and COMPLETED, but turns IN_PROGRESS into TODO |
| `TodoQueries.TogglePayload` | src/hooks/useTodos.ts:82-98 | The list toggle sends every updatable key: the toggled status, name "", priority LOW, archived false, children "", and null for the rest |
| `TodoQueries.CallOf` | src/hooks/useTodos.ts:32-98 | Create is a POST to the collection; update and toggle are a PATCH of the path of their own id, the toggle with the overwrite payload; delete is a DELETE of its id's path |
| `TodoQueries.SuccessActions` | src/hooks/useTodos.ts:33-102 | Every successful mutation first invalidates all lists, and no mutation removes an entry |
| `TodoQueries.Settle` | src/hooks/useTodos.ts:31-36 | A settled mutation keeps the set of cached keys; a failed one, having no error handler, changes nothing |
| `TodoQueries.CreateOrDeleteMarksOnlyLists` | src/hooks/useTodos.ts:33-35 | A successful create or delete marks every list entry stale and leaves all others, every detail entry included, unchanged |
| `TodoQueries.UpdateOrToggleMarksListsAndOwnDetail` | src/hooks/useTodos.ts:50-53 | A successful update or toggle marks all list entries and its own detail entry stale; other detail entries are unchanged |
| `PushUpdates.FrameActions` | src/hooks/useWebSocket.ts:28-50 | Unreadable frames and unknown types do nothing; known types invalidate lists first; only with an `id` in the data is a second action added, for that id's detail entry, and only todo_deleted removes anything |
| `PushUpdates.OnMessage` | src/hooks/useWebSocket.ts:24-51 | A push message never adds an entry, and one that triggers no operation leaves the cache as it was |
| `PushUpdates.CreatedOrUpdatedActsLikeUpdate` | src/hooks/useWebSocket.ts:29-37 | A todo_created or todo_updated message with an id has exactly the effect of a successful local update of that id |
| `PushUpdates.DeletedRemovesDetail` | src/hooks/useWebSocket.ts:39-46 | A todo_deleted message removes that detail entry rather than marking it stale, marks all lists stale, and keeps everything else |
| `PushUpdates.NoIdTouchesOnlyLists` | src/hooks/useWebSocket.ts:29-46 | A known message whose data has no `id` marks only the lists stale; every detail entry and the user entry are unchanged |
| `PushUpdates.IgnoredFramesKeepCache` | src/hooks/useWebSocket.ts:28-50 | An unknown message type or an unparsable frame leaves the cache unchanged |
| `PushUpdates.SendMessage` | src/hooks/useWebSocket.ts:82-86 | A message is sent, once and after everything sent before, exactly when the socket is open; otherwise nothing is sent |
| `AuthSession.SignIn` | src/hooks/useAuth.ts:14-19 | Sign-in stores both tokens from the response, keeps other stored items, caches the user as fresh, leaves detail entries alone, and marks lists stale only when asked |
| `AuthSession.SignOut` | src/hooks/useAuth.ts:71-83 | Logout removes both tokens, sets the user to null as fresh data under `["user"]`, marks every list stale and leaves detail entries alone |
| `AuthSession.ClearOnError` | src/components/AuthContext.tsx:29-36 | Any current-user error removes both token items, even an empty access token, keeps other stored items and adds none; without an error storage is untouched |
| `AuthSession.RegisterActsLikeLogin` | src/hooks/useAuth.ts:28-33 | A successful registration has exactly the effect of a successful login |
| `AuthSession.RefreshKeepsLists` | src/hooks/useAuth.ts:58-62 | A refresh stores both tokens and the user but leaves every list entry as it was |
| `AuthSession.LogoutOutcomeIrrelevant` | src/hooks/useAuth.ts:71-83 | Logout ends in the same state whether the remote call succeeds or fails |
| `AuthSession.FailedSignInChangesNothing` | src/hooks/useAuth.ts:12-20 | A failed login, registration or refresh leaves tokens, user and cache unchanged |
| `AuthSession.Step` | src/hooks/useAuth.ts:9-85 | No auth event touches a stored item other than the two tokens, adds a cache entry other than the user's, or changes a detail entry |
| `AuthSession.CurrentUserLoadedCachesUser` | src/hooks/useAuth.ts:37-51 | A loaded current user is held under `["user"]` as fresh data, with the tokens and every other entry unchanged |
| `AuthSession.AnyCurrentUserErrorClears` | src/components/AuthContext.tsx:29-36 | Every current-user error, "No token found" or a rejection with any status, removes the tokens and keeps the user and cache |
| `AuthSession.FetchCurrentUser` | src/hooks/useAuth.ts:40-46 | Without a stored token the query fails with "No token found" and sends no request; with one it returns the remote result |
| `AuthSession.CurrentUserOptions` | src/hooks/useAuth.ts:47-48 | The current-user query is enabled exactly when a token is stored, and is never retried |
| `AuthSession.FetchErrorClears` | src/hooks/useAuth.ts:37-51 | An enabled query always sends its request, and any error the query yields ends with no token stored |
| `AuthSession.ProviderValue` | src/components/AuthContext.tsx:38-42 | `isAuthenticated` is true exactly when a user value is present |
| `AuthSession.UseAuth` | src/components/AuthContext.tsx:14-20 | `useAuth` throws its fixed message exactly when called outside the provider, and otherwise returns the context |
| `AuthSession.SignedOutSendsNoBearer` | src/lib/api.ts:20-25 | After a logout or a current-user error, requests carry no `Authorization` header |
| `AuthSession.LoadCheck` | src/main.tsx:7-12 | After the load step no non-empty token is stored; a stored token is removed together with the refresh token; without one storage is untouched; other items survive and nothing is added |
| `AuthSession.LoadCheckLikeLogout` | src/main.tsx:7-12 | With a token stored, the load step leaves storage exactly as logout or a current-user error does |
| `AuthSession.LoadCheckIdempotent` | src/main.tsx:7-12 | Running the load step twice is running it once |
| `AuthSession.LoneRefreshTokenSurvives` | src/main.tsx:8 | Without a (non-empty) access token, the load step keeps both stored token values as they were |
| `Text.TrimStart` | src/components/TodoForm.tsx:24 | Trimming the start removes only leading white space and leaves a suffix that starts with a non-space |
| `Text.TrimEnd` | src/components/TodoForm.tsx:24 | Trimming the end removes only trailing white space and leaves a prefix that ends with a non-space |
| `Text.Trim` | src/components/TodoForm.tsx:24 | The trimmed text is a contiguous middle slice of the input with only white space cut on either side, and it neither starts nor ends with white space |
| `Text.TrimEmptyIffBlank` | src/components/TodoForm.tsx:21 | The trimmed text is empty exactly when the input is white space only |
| `Text.TrimIdempotent` | src/components/TodoForm.tsx:24-25 | Trimming twice is trimming once |
| `CreateForm.OpenForm` | src/components/TodoForm.tsx:51-61 | The add button opens the form and keeps the field contents |
| `CreateForm.FormRequest` | src/components/TodoForm.tsx:23-29 | A create body from the form has the given name and description, status TODO, priority LOW, archived false, and no other keys |
| `CreateForm.BuildRequest` | src/components/TodoForm.tsx:18-29 | A blank title produces no request; otherwise the name is the non-empty trimmed title, the description is the trimmed text or null when blank, and status, priority and archived are fixed |
| `CreateForm.SubmitDisabled` | src/components/TodoForm.tsx:122 | Submit is disabled whenever a create is pending, and otherwise exactly when the title is white space only |
| `CreateForm.DisabledIffNothingToSend` | src/components/TodoForm.tsx:122 | Submit is disabled while a create is pending, and otherwise exactly when a submit would send nothing |
| `CreateForm.RequestIsTrimmed` | src/components/TodoForm.tsx:24-25 | The name and description sent are already trimmed |
| `CreateForm.Settled` | src/components/TodoForm.tsx:31-42 | Success empties and closes the form; failure keeps the fields and the open state |
| `CreateForm.Cancel` | src/components/TodoForm.tsx:45-49 | Cancel empties and closes the form |
| `CreateForm.CancelLikeSuccess` | src/components/TodoForm.tsx:34-48 | Cancel and a successful create lead to the same form state |
| `FilterBar.OnSearchChange` | src/components/SearchAndFilter.tsx:10-15 | A search edit replaces only `search` and keeps `completed` |
| `FilterBar.OnStatusChange` | src/components/SearchAndFilter.tsx:17-22 | A status choice replaces only `completed` and keeps `search` |
| `FilterBar.SelectValue` | src/components/SearchAndFilter.tsx:57 | The select shows the chosen `completed` value, or "all" when none is set |
| `FilterBar.HasActiveFilters` | src/components/SearchAndFilter.tsx:31 | The filters are inactive exactly when the search is missing or empty and `completed` is "all"; a missing `completed` counts as active |
| `FilterBar.SearchBadge` | src/components/SearchAndFilter.tsx:80-84 | The search badge shows exactly for a non-empty search, with that text |
| `FilterBar.StatusBadge` | src/components/SearchAndFilter.tsx:85-89 | The status badge shows whenever `completed` is not "all" (absent included), reading "Completed" for "complete" and "In Progress" otherwise |
| `FilterBar.ActiveIffSomeBadge` | src/components/SearchAndFilter.tsx:24-31 | Filters are active exactly when some badge shows; the cleared filters {search "", completed "all"} are not active |
| `HomePage.OnFiltersChange` | src/pages/HomePage.tsx:14-17 | A filter change stores the new filters verbatim and returns to page 1 |
| `HomePage.OnTodoCreated` | src/pages/HomePage.tsx:19-22 | Creating a todo returns to page 1 and keeps the filters |
| `HomePage.OnPageChange` | src/pages/HomePage.tsx:42 | A page change sets the requested page and keeps the filters |
| `HomePage.Handle` | src/pages/HomePage.tsx:8-42 | A page request sets that page; every other event returns to page 1; only filter edits change the filters; no event unsets `completed` |
| `HomePage.FilterEditsResetPage` | src/pages/HomePage.tsx:8-17 | Typing, picking a status and clearing each go to page 1 and change exactly the edited filter field |
| `HomePage.CompletedChosenPreserved` | src/pages/HomePage.tsx:8-42 | No page event leaves the `completed` filter unset |
| `HomePage.CompletedChosenRun` | src/pages/HomePage.tsx:8-42 | Any run of page events from a state with a `completed` value keeps one |
| `HomePage.ActiveIffFilteredRequest` | src/components/SearchAndFilter.tsx:31 | In every state the page reaches, filters show as active exactly when the list request carries a search or status parameter |
| `HomePage.MissingCompletedDisagrees` | src/components/SearchAndFilter.tsx:31 | Filters without a `completed` value would count as active while the request filters nothing |
| `TodoListView.View` | src/components/TodoList.tsx:39-177 | Loading wins over error, error over an empty list, and only a non-empty page shows its todos, with a pager exactly when there is more than one page, showing the server's page, page count and flags |
| `TodoListView.PreviousClick` | src/components/TodoList.tsx:164-165 | Previous asks for page − 1, and is disabled exactly when there is no previous page |
| `TodoListView.NextClick` | src/components/TodoList.tsx:176-177 | Next asks for page + 1, and is disabled exactly when there is no next page |
| `TodoListView.ButtonsFollowFlagsOnly` | src/types/todo.ts:55-65 | The buttons depend on the two flags alone; totals, page and limit play no part |
| `TodoListView.PreviousThenNext` | src/components/TodoList.tsx:164-177 | Previous followed by next requests the original page |
| `TodoListView.ToggleClick` | src/components/TodoList.tsx:29-31 | A row's checkbox starts the toggle with the row's id and current status unchanged |
| `TodoListView.DeleteClick` | src/components/TodoList.tsx:33-37 | A delete of the row's id starts exactly when the user confirms |
| `TodoListView.RowToggleSends` | src/components/TodoList.tsx:29-31 | A row's checkbox patches that id with the full overwrite payload and the toggled status |
| `TodoDetailsView.View` | src/components/TodoDetails.tsx:26-43 | Loading wins; then an error or a missing todo; only then are the details shown |
| `TodoDetailsView.TogglePatch` | src/components/TodoDetails.tsx:45-50 | The detail toggle sends a patch with the status alone: TODO for COMPLETED, otherwise COMPLETED |
| `TodoDetailsView.TogglesAgreeOnStatusOnly` | src/components/TodoDetails.tsx:45-50 | The list and detail toggles request the same status for the same id, but the detail patch carries strictly fewer keys |
| `TodoDetailsView.DescriptionText` | src/components/TodoDetails.tsx:64 | A missing or null description reads as "" |
| `TodoDetailsView.StartEdit` | src/components/TodoDetails.tsx:62-66 | Entering edit mode copies the name and the description text |
| `TodoDetailsView.Save` | src/components/TodoDetails.tsx:68-77 | Save leaves edit mode at once and sends exactly the edited name and description, untrimmed and unchecked |
| `TodoDetailsView.Cancel` | src/components/TodoDetails.tsx:79-83 | Cancel leaves edit mode and clears both fields |
| `TodoDetailsView.EditThenSaveSendsCopy` | src/components/TodoDetails.tsx:62-77 | Editing and saving without changes sends the todo's own name and description text, a blank name included |
| `TodoDetailsView.StatusLabel` | src/components/TodoDetails.tsx:213 | The label reads "Completed" exactly for COMPLETED and "In Progress" otherwise |
| `TodoDetailsView.LabelConflatesOpenStatuses` | src/components/TodoDetails.tsx:213 | TODO and IN_PROGRESS show the same label |
| `TodoDetailsView.Rows` | src/components/TodoDetails.tsx:204-252 | Status and Created always show; Updated exactly when `updatedAt !== createdAt`; User exactly for a non-empty owner |
| `TodoDetailsView.DeleteFlow` | src/components/TodoDetails.tsx:52-60 | While a delete is pending the disabled button does nothing (line 174); otherwise a delete starts exactly when the user confirms, and navigation home happens exactly after that delete succeeds |
| `TodoDetailsView.DeleteButtonsAgree` | src/components/TodoList.tsx:33-37 | An idle detail delete button and the list's delete button start the same delete for the same answer; a pending detail button starts none |

## Left out

- Rendering, CSS classes, icons, routing, the route table, the profile
  page, the user menu and the error-test pages. They are presentation only.
- The HTTP transport: base URL, JSON headers beyond `Content-Type`, the
  10-second timeout and console logging. Responses and errors are inputs
  (`Result`).
- The encoding of the parameter list into a query string
  (`URLSearchParams.toString`, form URL-encoding). The model stops at the
  ordered list of name/value pairs.
- Query-cache internals: stale time, garbage-collection time, retry counts
  of other queries, deduplication of in-flight requests, background
  refetch and persistence. Only freshness flags and the invalidate /
  remove / set effects are modelled, under the prefix-matching assumption
  stated above.
- The WebSocket connection, its open/close callbacks and the 5-second
  reconnect timer are timing and I/O. `JSON.parse` is modelled only as a
  frame being readable or not. A non-string `id` in a message is not
  modelled.
- The socket provider component is not modelled: its socket is commented
  out, so it does nothing.
- The toast hook (DOM and timers) and date formatting with
  `toLocaleDateString`.
- `User` is reduced to its id. The auth-request types carry no behaviour.
- The auth API wrapper is left out: it only calls fixed endpoints, and
  its interceptor repeats `Api.Intercept`.
- `Decimal.NatToString`: digits only is promised for every natural
  number, but `toString` writes exponent form ("1e+21") from 10^21 upward,
  and above 2^53 a JavaScript number no longer holds every whole number
  exactly. Page numbers never come near either bound, so the model
  uses unbounded integers.
- `Decimal.IntToString`: page numbers are whole numbers. `toString` of
  fractional, infinite or NaN numbers is not modelled.
- `Todo.duration` is a whole number rather than a floating-point number.
- `useTodos` has a default page of 1, which is not modelled. Its only
  caller always passes a page. The defaults of `getTodos` are modelled.
- `TodoDetailsView`: a missing route id (`id!` on `undefined`) is not
  modelled. The id is a string.

=== FILE: api.dfy ===
/** The REST client of `src/lib/api.ts`: the request interceptor that adds
    the bearer header, the query parameters of the list request, the
    endpoints of the task calls and the error pass-through of update and
    delete. The transport itself is not modelled: a response or an error
    is an input. */
module Api {
  import opened Wrappers
  import opened TodoTypes
  import opened SessionStore
  import opened Decimal

  // ---------------------------------------------------------------- headers

  const AuthorizationHeader: string := "Authorization"
  const BearerPrefix: string := "Bearer "

  /** Headers every request starts with. */
  const DefaultHeaders: map<string, string> := map["Content-Type" := "application/json"]

  /** The request interceptor: with a (non-empty) stored access token the
      `Authorization` header becomes `Bearer <token>`; otherwise the headers
      pass through unchanged. */
  function Intercept(headers: map<string, string>, store: Storage): (r: map<string, string>)
    ensures HasAuthToken(store) ==>
      AuthorizationHeader in r && r[AuthorizationHeader] == BearerPrefix + store[AuthTokenKey]
    ensures !HasAuthToken(store) ==> r == headers
    ensures r.Keys == headers.Keys + (if HasAuthToken(store) then {AuthorizationHeader} else {})
    ensures forall h :: h in headers && h != AuthorizationHeader ==> r[h] == headers[h]
  {
    if HasAuthToken(store) then headers[AuthorizationHeader := BearerPrefix + store[AuthTokenKey]]
    else headers
  }

  /** Reads the token back out of an `Authorization` value. */
  function BearerToken(value: string): (r: Option<string>)
    ensures r.Some? ==> value == BearerPrefix + r.value
  {
    if |value| >= |BearerPrefix| && value[..|BearerPrefix|] == BearerPrefix
    then Some(value[|BearerPrefix|..])
    else None
  }

  /** On a fresh request the header is present exactly when a token is
      stored, and it carries that token. */
  lemma AuthorizationCarriesStoredToken(store: Storage)
    ensures var h := Intercept(DefaultHeaders, store);
      && (AuthorizationHeader in h <==> HasAuthToken(store))
      && (HasAuthToken(store) ==> BearerToken(h[AuthorizationHeader]) == GetItem(store, AuthTokenKey))
  {
    var h := Intercept(DefaultHeaders, store);
    if HasAuthToken(store) {
      var v := BearerPrefix + store[AuthTokenKey];
      assert v[..|BearerPrefix|] == BearerPrefix;
      assert v[|BearerPrefix|..] == store[AuthTokenKey];
    }
  }

  // ------------------------------------------------------ list query params

  datatype Param = Param(name: string, value: string)

  /** The parameter names in the order they are appended. */
  const ParamOrder: seq<string> := ["page", "limit", "search", "status"]

  function Rank(name: string): nat {
    if name == "page" then 0
    else if name == "limit" then 1
    else if name == "search" then 2
    else 3
  }

  /** `filters?.search` when it is truthy: a non-empty search string. */
  function SearchTerm(filters: Option<Filters>): (r: Option<string>)
    ensures r.Some? <==> filters.Some? && filters.value.search.Some? && filters.value.search.value != ""
    ensures r.Some? ==> r == filters.value.search
  {
    if filters.Some? && filters.value.search.Some? && filters.value.search.value != ""
    then filters.value.search
    else None
  }

  /** The server status requested for the completion filter: none for an
      absent filter or "all", COMPLETED for "complete", TODO for
      "incomplete". IN_PROGRESS is never asked for. */
  function RequestedStatus(filters: Option<Filters>): (r: Option<Status>)
    ensures r != Some(IN_PROGRESS)
    ensures r.None? <==> filters.None? || filters.value.completed in {None, Some(All)}
    ensures filters.Some? && filters.value.completed == Some(Complete) ==> r == Some(COMPLETED)
    ensures filters.Some? && filters.value.completed == Some(Incomplete) ==> r == Some(TODO)
  {
    if filters.None? then None
    else match filters.value.completed
      case Some(Complete) => Some(COMPLETED)
      case Some(Incomplete) => Some(TODO)
      case _ => None
  }

  /** The query parameters of `GET /tasks`: page (default 1), limit
      (default 10), then search and status when they apply. */
  function ListParams(page: Option<int>, limit: Option<int>, filters: Option<Filters>): (r: seq<Param>)
    ensures 2 <= |r| <= 4
    ensures r[0] == Param("page", IntToString(page.GetOr(1)))
    ensures r[1] == Param("limit", IntToString(limit.GetOr(10)))
    ensures forall i :: 0 <= i < |r| ==> r[i].name in ParamOrder
    ensures forall i, j :: 0 <= i < j < |r| ==> Rank(r[i].name) < Rank(r[j].name)
    ensures forall i :: 0 <= i < |r| && r[i].name == "status" ==> r[i].value in {"COMPLETED", "TODO"}
  {
    var base := [Param("page", IntToString(page.GetOr(1))), Param("limit", IntToString(limit.GetOr(10)))];
    var withSearch := match SearchTerm(filters)
      case Some(s) => base + [Param("search", s)]
      case None => base;
    match RequestedStatus(filters)
    case Some(st) => withSearch + [Param("status", StatusName(st))]
    case None => withSearch
  }

  /** The value of the first parameter called `name`. */
  function Lookup(ps: seq<Param>, name: string): (r: Option<string>)
    ensures r.None? ==> forall i :: 0 <= i < |ps| ==> ps[i].name != name
    ensures r.Some? ==> Param(name, r.value) in ps
    ensures r.Some? ==> exists i :: 0 <= i < |ps| && ps[i] == Param(name, r.value)
                                    && forall j :: 0 <= j < i ==> ps[j].name != name
  {
    if |ps| == 0 then None
    else if ps[0].name == name then Some(ps[0].value)
    else Lookup(ps[1..], name)
  }

  /** A list request as the server reads it. */
  datatype ListRequest = ListRequest(page: int, limit: int, search: Option<string>, status: Option<Status>)

  /** The server-side reading of a parameter list. */
  function DecodeListParams(ps: seq<Param>): Option<ListRequest> {
    var p := Lookup(ps, "page");
    var l := Lookup(ps, "limit");
    var st := Lookup(ps, "status");
    if p.None? || l.None? || ParseInt(p.value).None? || ParseInt(l.value).None? then None
    else if st.Some? && ParseStatus(st.value).None? then None
    else
      var status := if st.Some? then ParseStatus(st.value) else None;
      Some(ListRequest(ParseInt(p.value).value, ParseInt(l.value).value, Lookup(ps, "search"), status))
  }

  /** Parameters other than the one looked up can be skipped. */
  lemma LookupPast(front: seq<Param>, tail: seq<Param>, name: string)
    requires forall i :: 0 <= i < |front| ==> front[i].name != name
    ensures Lookup(front + tail, name) == Lookup(tail, name)
    decreases |front|
  {
    if |front| > 0 {
      assert (front + tail)[1..] == front[1..] + tail;
      LookupPast(front[1..], tail, name);
    } else {
      assert front + tail == tail;
    }
  }

  /** The optional search and status parameters, looked up in the tail of
      the list that follows page and limit. */
  lemma TailLookups(s: Option<string>, st: Option<Status>)
    ensures var tail := (if s.Some? then [Param("search", s.value)] else [])
                      + (if st.Some? then [Param("status", StatusName(st.value))] else []);
      && Lookup(tail, "search") == s
      && Lookup(tail, "status") == (if st.Some? then Some(StatusName(st.value)) else None)
  {
    var front := if s.Some? then [Param("search", s.value)] else [];
    var back := if st.Some? then [Param("status", StatusName(st.value))] else [];
    LookupPast(front, back, "status");
    if s.None? {
      assert front + back == back;
    }
  }

  /** Decoding depends only on what the four lookups find. */
  lemma DecodeReads(ps: seq<Param>, page: int, limit: int, search: Option<string>, status: Option<Status>)
    requires Lookup(ps, "page") == Some(IntToString(page))
    requires Lookup(ps, "limit") == Some(IntToString(limit))
    requires Lookup(ps, "search") == search
    requires Lookup(ps, "status") == (if status.Some? then Some(StatusName(status.value)) else None)
    ensures DecodeListParams(ps) == Some(ListRequest(page, limit, search, status))
  {
    IntToStringRoundTrip(page);
    IntToStringRoundTrip(limit);
    if status.Some? {
      StatusNameRoundTrip(status.value, StatusName(status.value));
    }
  }

  /** Page and limit, then the search and status parameters that apply. */
  function Assembled(page: int, limit: int, search: Option<string>, status: Option<Status>): seq<Param> {
    [Param("page", IntToString(page)), Param("limit", IntToString(limit))]
    + (if search.Some? then [Param("search", search.value)] else [])
    + (if status.Some? then [Param("status", StatusName(status.value))] else [])
  }

  lemma ListParamsShape(page: Option<int>, limit: Option<int>, filters: Option<Filters>)
    ensures ListParams(page, limit, filters)
         == Assembled(page.GetOr(1), limit.GetOr(10), SearchTerm(filters), RequestedStatus(filters))
  {
  }

  /** Page and limit lead the list, so the tail never hides them. */
  lemma HeadLookups(pageText: string, limitText: string, tail: seq<Param>)
    ensures var r := [Param("page", pageText), Param("limit", limitText)] + tail;
      Lookup(r, "page") == Some(pageText) && Lookup(r, "limit") == Some(limitText)
  {
    var r := [Param("page", pageText), Param("limit", limitText)] + tail;
    assert r[1..] == [Param("limit", limitText)] + tail;
  }

  /** Reading an assembled list recovers what went into it. */
  lemma DecodeAssembled(page: int, limit: int, s: Option<string>, st: Option<Status>)
    ensures DecodeListParams(Assembled(page, limit, s, st)) == Some(ListRequest(page, limit, s, st))
  {
    var head := [Param("page", IntToString(page)), Param("limit", IntToString(limit))];
    var tail := (if s.Some? then [Param("search", s.value)] else [])
              + (if st.Some? then [Param("status", StatusName(st.value))] else []);
    var r := head + tail;
    assert Assembled(page, limit, s, st) == r;
    TailLookups(s, st);
    LookupPast(head, tail, "search");
    LookupPast(head, tail, "status");
    HeadLookups(IntToString(page), IntToString(limit), tail);
    DecodeReads(r, page, limit, s, st);
  }

  /** The parameters say what the caller asked for: reading them back
      gives the page and limit (with their defaults), the search term
      exactly when it is non-empty, and the mapped status. */
  lemma ListParamsRoundTrip(page: Option<int>, limit: Option<int>, filters: Option<Filters>)
    ensures DecodeListParams(ListParams(page, limit, filters))
         == Some(ListRequest(page.GetOr(1), limit.GetOr(10), SearchTerm(filters), RequestedStatus(filters)))
  {
    ListParamsShape(page, limit, filters);
    DecodeAssembled(page.GetOr(1), limit.GetOr(10), SearchTerm(filters), RequestedStatus(filters));
  }

  // -------------------------------------------------------------- endpoints

  /** The calls of `todoApi`. */
  datatype Call =
    | ListTasks(params: seq<Param>)
    | GetTask(id: string)
    | CreateTask(create: CreateRequest)
    | UpdateTask(id: string, patch: UpdateRequest)
    | DeleteTask(id: string)

  /** The HTTP method: an update is a PATCH, never a PUT. */
  function Method(c: Call): (r: string)
    ensures r in {"GET", "POST", "PATCH", "DELETE"}
    ensures r == "PATCH" <==> c.UpdateTask?
    ensures r == "DELETE" <==> c.DeleteTask?
    ensures r == "POST" <==> c.CreateTask?
    ensures r == "GET" <==> c.ListTasks? || c.GetTask?
  {
    match c
    case ListTasks(_) => "GET"
    case GetTask(_) => "GET"
    case CreateTask(_) => "POST"
    case UpdateTask(_, _) => "PATCH"
    case DeleteTask(_) => "DELETE"
  }

  const TasksPath: string := "/tasks"

  /** The request path; the id is interpolated as it is, without escaping. */
  function Path(c: Call): (r: string)
    ensures |TasksPath| <= |r| && r[..|TasksPath|] == TasksPath
    ensures |r| == |TasksPath| <==> c.ListTasks? || c.CreateTask?
  {
    match c
    case ListTasks(_) => TasksPath
    case CreateTask(_) => TasksPath
    case GetTask(id) => TasksPath + "/" + id
    case UpdateTask(id, _) => TasksPath + "/" + id
    case DeleteTask(id) => TasksPath + "/" + id
  }

  /** The task id a path addresses, if it addresses one. */
  function TaskIdOf(path: string): (r: Option<string>)
    ensures r.Some? ==> path == TasksPath + "/" + r.value
  {
    var prefix := TasksPath + "/";
    if |path| >= |prefix| && path[..|prefix|] == prefix then Some(path[|prefix|..]) else None
  }

  /** Calls on one task address that task; calls on the collection
      address none. */
  lemma PathAddressesTask(c: Call)
    ensures (c.GetTask? || c.UpdateTask? || c.DeleteTask?) ==> TaskIdOf(Path(c)) == Some(c.id)
    ensures (c.ListTasks? || c.CreateTask?) ==> TaskIdOf(Path(c)).None?
  {
    var prefix := TasksPath + "/";
    if c.GetTask? || c.UpdateTask? || c.DeleteTask? {
      var p := Path(c);
      assert p == prefix + c.id;
      assert p[..|prefix|] == prefix;
      assert p[|prefix|..] == c.id;
    }
  }

  // ---------------------------------------------------------------- outcomes

  /** A rejected request: the HTTP status when a response arrived, and its body. */
  datatype ApiError = ApiError(status: Option<int>, body: string)

  /** `updateTodo` logs a failure and rethrows the very same error. */
  function UpdateOutcome(response: Result<Todo, ApiError>): (r: Result<Todo, ApiError>)
    ensures r.Ok? <==> response.Ok?
    ensures response.Ok? ==> r.value == response.value
    ensures response.Err? ==> r.error == response.error
  {
    match response
    case Ok(t) => Ok(t)
    case Err(e) => Err(e)
  }

  /** `deleteTodo` discards the response body of a success (204, no
      content) and rethrows a failure unchanged. */
  function DeleteOutcome<B>(response: Result<B, ApiError>): (r: Result<(), ApiError>)
    ensures r.Ok? <==> response.Ok?
    ensures response.Err? ==> r.error == response.error
  {
    match response
    case Ok(_) => Ok(())
    case Err(e) => Err(e)
  }
}

=== FILE: auth_session.dfy ===
/** The session-token lifecycle of `src/hooks/useAuth.ts`,
    `src/components/AuthContext.tsx` and `src/main.tsx`: what sign-in,
    registration, refresh, logout, a current-user error and the page load
    do to the stored tokens, the cached user and the list entries. */
module AuthSession {
  import opened Wrappers
  import opened SessionStore
  import opened QueryCache
  import Api

  /** The signed-in user, opaque here beyond its id. */
  datatype User = User(id: string)

  /** The body of a successful login, registration or refresh. */
  datatype AuthResponse = AuthResponse(user: User, token: string, refreshToken: string)

  /** The client state the auth hooks touch: local storage, the user held
      under the `["user"]` key (`None` for `undefined` and `null` alike)
      and the freshness of every cache entry. */
  datatype AppState = AppState(storage: Storage, user: Option<User>, cache: Cache)

  /** Why the current-user query failed: "No token found", thrown before
      any request, or a rejected `GET /auth/me` with whatever status. */
  datatype AuthError = NoTokenFound | Rejected(error: Api.ApiError)

  datatype AuthEvent =
    | LoginSucceeded(response: AuthResponse)
    | LoginFailed
    | RegisterSucceeded(response: AuthResponse)
    | RegisterFailed
    | RefreshSucceeded(response: AuthResponse)
    | RefreshFailed
    | LogoutSucceeded
    | LogoutFailed
    | CurrentUserLoaded(user: User)
    | CurrentUserFailed(error: AuthError)

  /** The shared `onSuccess` of login, registration and refresh: store both
      tokens and cache the user; login and registration also invalidate the
      lists. */
  function SignIn(st: AppState, resp: AuthResponse, invalidateLists: bool): (r: AppState)
    ensures GetItem(r.storage, AuthTokenKey) == Some(resp.token)
    ensures GetItem(r.storage, RefreshTokenKey) == Some(resp.refreshToken)
    ensures forall k :: k in st.storage && k != AuthTokenKey && k != RefreshTokenKey ==> k in r.storage && r.storage[k] == st.storage[k]
    ensures OnlyTokensChange(st.storage, r.storage)
    ensures r.user == Some(resp.user)
    ensures UserKey in r.cache && r.cache[UserKey] == Fresh
    ensures r.cache.Keys == st.cache.Keys + {UserKey}
    ensures forall k :: k in st.cache && k.TodoKey? ==> r.cache[k] == st.cache[k]
    ensures forall k :: k in st.cache && k.TodosKey? ==>
      r.cache[k] == (if invalidateLists then Stale else st.cache[k])
  {
    var cache := SetData(st.cache, UserKey);
    var cache' := if invalidateLists then Apply(cache, Invalidate(AllLists)) else cache;
    forall k | k in cache
      ensures Matches(AllLists, k) <==> k.TodosKey?
    {
      AllListsSelectsLists(k);
    }
    AppState(StoreTokens(st.storage, resp.token, resp.refreshToken), Some(resp.user), cache')
  }

  /** The `onSuccess` and `onError` of logout, which are the same: both
      tokens removed, the user set to `null`, the lists invalidated. */
  function SignOut(st: AppState): (r: AppState)
    ensures !HasAuthToken(r.storage) && GetItem(r.storage, RefreshTokenKey).None?
    ensures r.storage.Keys == st.storage.Keys - {AuthTokenKey, RefreshTokenKey}
    ensures OnlyTokensChange(st.storage, r.storage)
    ensures r.user.None?
    ensures UserKey in r.cache && r.cache[UserKey] == Fresh
    ensures r.cache.Keys == st.cache.Keys + {UserKey}
    ensures forall k :: k in st.cache && k.TodosKey? ==> r.cache[k] == Stale
    ensures forall k :: k in st.cache && k.TodoKey? ==> r.cache[k] == st.cache[k]
  {
    var cache := SetData(st.cache, UserKey);
    forall k | k in cache
      ensures Matches(AllLists, k) <==> k.TodosKey?
    {
      AllListsSelectsLists(k);
    }
    AppState(RemoveTokens(st.storage), None, Apply(cache, Invalidate(AllLists)))
  }

  /** The effect in `AuthProvider`: any current-user error, whatever its
      status, removes both tokens; without an error storage is untouched. */
  function ClearOnError(s: Storage, error: Option<AuthError>): (r: Storage)
    ensures error.None? ==> r == s
    ensures OnlyTokensChange(s, r)
    ensures error.Some? ==> !HasAuthToken(r) && GetItem(r, RefreshTokenKey).None?
    ensures error.Some? ==> AuthTokenKey !in r && r.Keys == s.Keys - {AuthTokenKey, RefreshTokenKey}
    ensures forall k :: k in r ==> k in s && r[k] == s[k]
    ensures forall k :: k in s && k != AuthTokenKey && k != RefreshTokenKey ==> k in r
  {
    if error.Some? then RemoveTokens(s) else s
  }

  /** `r` holds exactly the items of `s` other than the two tokens. */
  predicate OnlyTokensChange(s: Storage, r: Storage) {
    && (forall k :: k in s && k != AuthTokenKey && k != RefreshTokenKey ==> k in r && r[k] == s[k])
    && (forall k :: k in r && k != AuthTokenKey && k != RefreshTokenKey ==> k in s)
  }

  /** One auth event. Failed login, registration and refresh have no
      `onError`, so they change nothing. No event touches a stored item
      other than the two tokens, and the only cache entry an event can add
      is the user's. */
  function Step(st: AppState, e: AuthEvent): (r: AppState)
    ensures OnlyTokensChange(st.storage, r.storage)
    ensures r.cache.Keys <= st.cache.Keys + {UserKey}
    ensures forall k :: k in st.cache && k.TodoKey? ==> k in r.cache && r.cache[k] == st.cache[k]
  {
    match e
    case LoginSucceeded(resp) => SignIn(st, resp, true)
    case RegisterSucceeded(resp) => SignIn(st, resp, true)
    case RefreshSucceeded(resp) => SignIn(st, resp, false)
    case LoginFailed => st
    case RegisterFailed => st
    case RefreshFailed => st
    case LogoutSucceeded => SignOut(st)
    case LogoutFailed => SignOut(st)
    case CurrentUserLoaded(u) => st.(user := Some(u), cache := SetData(st.cache, UserKey))
    case CurrentUserFailed(err) => st.(storage := ClearOnError(st.storage, Some(err)))
  }

  /** A loaded current user is held under `["user"]` as fresh data; the
      tokens and every other entry stay as they were. */
  lemma CurrentUserLoadedCachesUser(st: AppState, u: User)
    ensures var r := Step(st, CurrentUserLoaded(u));
      && r.user == Some(u)
      && UserKey in r.cache && r.cache[UserKey] == Fresh
      && r.storage == st.storage
      && r.cache.Keys == st.cache.Keys + {UserKey}
      && forall k :: k in st.cache && k != UserKey ==> r.cache[k] == st.cache[k]
  {
  }

  /** Registration has exactly the effect of login. */
  lemma RegisterActsLikeLogin(st: AppState, resp: AuthResponse)
    ensures Step(st, RegisterSucceeded(resp)) == Step(st, LoginSucceeded(resp))
    ensures Step(st, LoginSucceeded(resp)).storage == StoreTokens(st.storage, resp.token, resp.refreshToken)
  {
  }

  /** A refresh stores the new tokens and user but leaves every list entry
      as it was. */
  lemma RefreshKeepsLists(st: AppState, resp: AuthResponse)
    ensures var r := Step(st, RefreshSucceeded(resp));
      && r.storage == StoreTokens(st.storage, resp.token, resp.refreshToken)
      && r.user == Some(resp.user)
      && forall k :: k in st.cache && k.TodosKey? ==> r.cache[k] == st.cache[k]
  {
  }

  /** Logout ends in one state whether the remote call succeeds or fails. */
  lemma LogoutOutcomeIrrelevant(st: AppState)
    ensures Step(st, LogoutSucceeded) == Step(st, LogoutFailed)
    ensures Step(st, LogoutFailed).storage == RemoveTokens(st.storage)
  {
  }

  /** A failed login, registration or refresh leaves everything unchanged. */
  lemma FailedSignInChangesNothing(st: AppState, e: AuthEvent)
    requires e.LoginFailed? || e.RegisterFailed? || e.RefreshFailed?
    ensures Step(st, e) == st
  {
  }

  /** Every current-user error clears the session, "No token found" and a
      server error as much as a 401, yet keeps the user and cache. */
  lemma AnyCurrentUserErrorClears(st: AppState, err: AuthError)
    ensures var r := Step(st, CurrentUserFailed(err));
      && r.storage == RemoveTokens(st.storage)
      && r.user == st.user && r.cache == st.cache
  {
  }

  // ------------------------------------------------------ current-user query

  /** The outcome of the current-user query function: rejected before any
      request, or the result of `GET /auth/me`. */
  datatype UserFetch = NotSent(error: AuthError) | Sent(outcome: Result<User, Api.ApiError>)

  /** The query function: fails with "No token found" before any request
      when no token is stored. */
  function FetchCurrentUser(s: Storage, remote: Result<User, Api.ApiError>): (r: UserFetch)
    ensures r.NotSent? <==> !HasAuthToken(s)
    ensures r.NotSent? ==> r.error == NoTokenFound
    ensures r.Sent? ==> r.outcome == remote
  {
    if HasAuthToken(s) then Sent(remote) else NotSent(NoTokenFound)
  }

  datatype QueryOptions = QueryOptions(enabled: bool, retries: nat)

  /** The options of the current-user query: enabled only with a stored
      token, and never retried. */
  function CurrentUserOptions(s: Storage): (o: QueryOptions)
    ensures o.enabled <==> HasAuthToken(s)
    ensures o.retries == 0
  {
    QueryOptions(HasAuthToken(s), 0)
  }

  /** The query never runs without a token, so its "No token found" branch
      is a guard that only a token removed between scheduling and running
      could reach. Whatever the query yields, an error ends with no token. */
  lemma FetchErrorClears(st: AppState, remote: Result<User, Api.ApiError>)
    ensures CurrentUserOptions(st.storage).enabled ==> FetchCurrentUser(st.storage, remote).Sent?
    ensures var f := FetchCurrentUser(st.storage, remote);
      var err := if f.NotSent? then Some(f.error) else if f.outcome.Err? then Some(Rejected(f.outcome.error)) else None;
      err.Some? ==> !HasAuthToken(Step(st, CurrentUserFailed(err.value)).storage)
  {
  }

  // ------------------------------------------------------------ auth context

  datatype AuthContextValue = AuthContextValue(user: Option<User>, isLoading: bool, isAuthenticated: bool)

  /** The value `AuthProvider` publishes. */
  function ProviderValue(user: Option<User>, isLoading: bool): (v: AuthContextValue)
    ensures v.isAuthenticated <==> user.Some?
    ensures v.user == user && v.isLoading == isLoading
  {
    AuthContextValue(user, isLoading, user.Some?)
  }

  const OutsideProviderMessage: string := "useAuth must be used within an AuthProvider"

  /** `useAuth`: throws outside the provider. */
  function UseAuth(context: Option<AuthContextValue>): (r: Result<AuthContextValue, string>)
    ensures r.Err? <==> context.None?
    ensures r.Err? ==> r.error == OutsideProviderMessage
    ensures r.Ok? ==> r.value == context.value
  {
    match context
    case None => Err(OutsideProviderMessage)
    case Some(v) => Ok(v)
  }

  /** After logout or any current-user error nobody is authenticated by
      stored credentials: no request carries a bearer header. */
  lemma SignedOutSendsNoBearer(st: AppState, err: AuthError)
    ensures Api.Intercept(Api.DefaultHeaders, SignOut(st).storage) == Api.DefaultHeaders
    ensures Api.Intercept(Api.DefaultHeaders, Step(st, CurrentUserFailed(err)).storage) == Api.DefaultHeaders
  {
  }

  // --------------------------------------------------------------- page load

  /** The check in `main.tsx`: when an access token is stored (non-empty),
      both tokens are removed; otherwise storage is left as it is. */
  function LoadCheck(s: Storage): (r: Storage)
    ensures !HasAuthToken(r)
    ensures HasAuthToken(s) ==> GetItem(r, RefreshTokenKey).None?
    ensures HasAuthToken(s) ==> AuthTokenKey !in r && r.Keys == s.Keys - {AuthTokenKey, RefreshTokenKey}
    ensures !HasAuthToken(s) ==> r == s
    ensures forall k :: k in s && k != AuthTokenKey && k != RefreshTokenKey ==> k in r && r[k] == s[k]
    ensures forall k :: k in r ==> k in s && r[k] == s[k]
  {
    if HasAuthToken(s) then RemoveTokens(s) else s
  }

  /** Loading twice is loading once. */
  lemma LoadCheckIdempotent(s: Storage)
    ensures LoadCheck(LoadCheck(s)) == LoadCheck(s)
  {
  }

  /** With a token stored, the load step leaves storage exactly as a logout
      would, and exactly as a current-user error would. */
  lemma LoadCheckLikeLogout(st: AppState, err: AuthError)
    ensures HasAuthToken(st.storage) ==> LoadCheck(st.storage) == SignOut(st).storage
    ensures HasAuthToken(st.storage) ==> LoadCheck(st.storage) == Step(st, CurrentUserFailed(err)).storage
  {
  }

  /** A refresh token stored without an access token survives the load,
      and so does an empty access token, which JavaScript reads as none. */
  lemma LoneRefreshTokenSurvives(s: Storage)
    requires AuthTokenKey !in s || s[AuthTokenKey] == ""
    ensures GetItem(LoadCheck(s), RefreshTokenKey) == GetItem(s, RefreshTokenKey)
    ensures GetItem(LoadCheck(s), AuthTokenKey) == GetItem(s, AuthTokenKey)
  {
  }
}

=== FILE: create_form.dfy ===
/** The create form of `src/components/TodoForm.tsx`: its open/closed state
    and two text fields, the validation and request construction of a
    submit, and what success, failure and cancel do to the form. */
module CreateForm {
  import opened Wrappers
  import opened TodoTypes
  import opened Text

  datatype FormState = FormState(isOpen: bool, title: string, description: string)

  /** The initial state, and the state after success or cancel. */
  const Closed: FormState := FormState(false, "", "")

  /** The "Add New Todo" button. */
  function OpenForm(st: FormState): (r: FormState)
    ensures r.isOpen && r.title == st.title && r.description == st.description
  {
    st.(isOpen := true)
  }

  /** The body a valid submit sends. */
  function FormRequest(name: string, description: Field<string>): (r: CreateRequest)
    ensures r.name == name && r.description == description
    ensures r.status == Some(TODO) && r.priority == Some(LOW) && r.archived == Some(false)
    ensures !description.Absent? ==> CreateKeys(r) == {NameKey, DescriptionKey, StatusKey, PriorityKey, ArchivedKey}
    ensures description.Absent? ==> CreateKeys(r) == {NameKey, StatusKey, PriorityKey, ArchivedKey}
  {
    CreateRequest(
      name := name,
      description := description,
      start := Absent,
      end := Absent,
      duration := Absent,
      priority := Some(LOW),
      status := Some(TODO),
      archived := Some(false),
      isDefault := Absent,
      parentId := Absent,
      children := Absent,
      owner := Absent,
      tags := Absent,
      completedAt := Absent)
  }

  /** `handleSubmit`: a blank title sends nothing; otherwise a create body
      with the trimmed title, the trimmed description or `null`, and fixed
      status, priority and archived flag. */
  function BuildRequest(title: string, description: string): (r: Option<CreateRequest>)
    ensures r.None? <==> AllTrimmable(title)
    ensures r.Some? ==> r.value.name == Trim(title) && r.value.name != ""
    ensures r.Some? ==> r.value.description == (if AllTrimmable(description) then Null else Present(Trim(description)))
    ensures r.Some? ==> r.value.status == Some(TODO) && r.value.priority == Some(LOW) && r.value.archived == Some(false)
    ensures r.Some? ==> CreateKeys(r.value) == {NameKey, DescriptionKey, StatusKey, PriorityKey, ArchivedKey}
  {
    TrimEmptyIffBlank(title);
    TrimEmptyIffBlank(description);
    var name := Trim(title);
    var d := Trim(description);
    if name == "" then None
    else Some(FormRequest(name, if d == "" then Null else Present(d)))
  }

  /** The submit button is disabled for a blank title or while a create is
      pending. */
  predicate SubmitDisabled(title: string, pending: bool)
    ensures pending ==> SubmitDisabled(title, pending)
    ensures !pending ==> (SubmitDisabled(title, pending) <==> AllTrimmable(title))
  {
    TrimEmptyIffBlank(title);
    Trim(title) == "" || pending
  }

  /** With no create pending, the button is disabled exactly when a submit
      would send nothing. */
  lemma DisabledIffNothingToSend(title: string, description: string)
    ensures SubmitDisabled(title, false) <==> BuildRequest(title, description).None?
    ensures SubmitDisabled(title, true)
  {
    TrimEmptyIffBlank(title);
  }

  /** A request built from the form carries already-trimmed text: trimming
      its name or description again changes nothing. */
  lemma RequestIsTrimmed(title: string, description: string)
    requires BuildRequest(title, description).Some?
    ensures var r := BuildRequest(title, description).value;
      && Trim(r.name) == r.name
      && (r.description.Present? ==> Trim(r.description.value) == r.description.value)
  {
    TrimIdempotent(title);
    TrimIdempotent(description);
  }

  /** The form after the create settles: success empties and closes it,
      failure leaves it as it was (only a toast appears). */
  function Settled(st: FormState, succeeded: bool): (r: FormState)
    ensures succeeded ==> !r.isOpen && r.title == "" && r.description == ""
    ensures !succeeded ==> r == st
  {
    if succeeded then Closed else st
  }

  /** `handleCancel`. */
  function Cancel(st: FormState): (r: FormState)
    ensures !r.isOpen && r.title == "" && r.description == ""
  {
    Closed
  }

  /** Cancel and a successful create leave the form in the same state. */
  lemma CancelLikeSuccess(st: FormState, other: FormState)
    ensures Cancel(st) == Settled(other, true)
  {
  }
}

=== FILE: decimal.dfy ===
/** Decimal text of integers, as `Number.prototype.toString()` writes a
    whole number of magnitude below 10^21 that a double holds exactly, and
    the reading back of that text. */
module Decimal {
  import opened Wrappers

  predicate IsDigit(c: char) {
    '0' <= c <= '9'
  }

  predicate AllDigits(s: string) {
    forall i :: 0 <= i < |s| ==> IsDigit(s[i])
  }

  function DigitValue(c: char): (d: nat)
    requires IsDigit(c)
    ensures d < 10
  {
    c as int - '0' as int
  }

  function DigitChar(d: nat): (c: char)
    requires d < 10
    ensures IsDigit(c)
    ensures DigitValue(c) == d
  {
    ('0' as int + d) as char
  }

  /** Base-ten digits of `n`, most significant first, with no leading zero. */
  function NatToString(n: nat): (s: string)
    ensures |s| > 0 && AllDigits(s)
    ensures s[0] == '0' <==> n == 0
    decreases n
  {
    if n < 10 then [DigitChar(n)] else NatToString(n / 10) + [DigitChar(n % 10)]
  }

  /** `n.toString()` for a whole number: a minus sign, then the digits of |n|. */
  function IntToString(n: int): (s: string)
    ensures |s| > 0
    ensures s[0] == '-' <==> n < 0
  {
    if n < 0 then "-" + NatToString(-n) else NatToString(n)
  }

  /** The value of a string of digits (0 for the empty string). */
  function DigitsValue(s: string): nat
    requires AllDigits(s)
    decreases |s|
  {
    if |s| == 0 then 0 else DigitsValue(s[..|s| - 1]) * 10 + DigitValue(s[|s| - 1])
  }

  /** Reads an optionally signed decimal integer; `None` for any other text. */
  function ParseInt(s: string): (r: Option<int>)
    ensures r.Some? ==> |s| > 0
    ensures r.Some? && r.value < 0 ==> s[0] == '-'
  {
    if |s| > 1 && s[0] == '-' && AllDigits(s[1..]) then Some(-(DigitsValue(s[1..]) as int))
    else if |s| > 0 && AllDigits(s) then Some(DigitsValue(s))
    else None
  }

  lemma {:induction false} NatToStringRoundTrip(n: nat)
    ensures DigitsValue(NatToString(n)) == n
    decreases n
  {
    var s := NatToString(n);
    if n < 10 {
      assert s[..|s| - 1] == [];
    } else {
      assert s[..|s| - 1] == NatToString(n / 10);
      NatToStringRoundTrip(n / 10);
    }
  }

  /** Reading back the text of any integer gives that integer. */
  lemma IntToStringRoundTrip(n: int)
    ensures ParseInt(IntToString(n)) == Some(n)
  {
    var s := IntToString(n);
    if n < 0 {
      assert s[1..] == NatToString(-n);
      NatToStringRoundTrip(-n);
    } else {
      NatToStringRoundTrip(n);
    }
  }

  /** Distinct integers have distinct texts. */
  lemma IntToStringInjective(a: int, b: int)
    ensures IntToString(a) == IntToString(b) <==> a == b
  {
    IntToStringRoundTrip(a);
    IntToStringRoundTrip(b);
  }
}

=== FILE: filter_bar.dfy ===
/** The search box and status select of
    `src/components/SearchAndFilter.tsx`: how each edit rewrites the
    filters, the clear button, and when the active-filter badges show. */
module FilterBar {
  import opened Wrappers
  import opened TodoTypes

  /** Typing in the search box: only `search` changes. */
  function OnSearchChange(f: Filters, value: string): (r: Filters)
    ensures r.search == Some(value) && r.completed == f.completed
  {
    f.(search := Some(value))
  }

  /** Picking a status: only `completed` changes. */
  function OnStatusChange(f: Filters, value: CompletedFilter): (r: Filters)
    ensures r.completed == Some(value) && r.search == f.search
  {
    f.(completed := Some(value))
  }

  /** The filters the clear button hands on. */
  const Cleared: Filters := Filters(Some(""), Some(All))

  /** `filters.search || filters.completed !== 'all'`: a missing
      `completed` counts as active. */
  predicate HasActiveFilters(f: Filters)
    ensures f.completed.None? ==> HasActiveFilters(f)
    ensures !HasActiveFilters(f) <==> f.search in {None, Some("")} && f.completed == Some(All)
  {
    (f.search.Some? && f.search.value != "") || f.completed != Some(All)
  }

  /** The value the select shows: `filters.completed || 'all'`. */
  function SelectValue(f: Filters): (r: CompletedFilter)
    ensures f.completed.Some? ==> r == f.completed.value
    ensures f.completed.None? ==> r == All
  {
    f.completed.GetOr(All)
  }

  /** The search badge: shown with the search text when it is non-empty. */
  function SearchBadge(f: Filters): (r: Option<string>)
    ensures r.Some? <==> f.search.Some? && f.search.value != ""
    ensures r.Some? ==> r == f.search
  {
    if f.search.Some? && f.search.value != "" then f.search else None
  }

  /** The status badge: shown whenever `completed` is not "all", reading
      "Completed" for "complete" and "In Progress" otherwise, including
      for a missing value. */
  function StatusBadge(f: Filters): (r: Option<string>)
    ensures r.Some? <==> f.completed != Some(All)
    ensures r == Some("Completed") <==> f.completed == Some(Complete)
    ensures r.Some? && r != Some("Completed") ==> r == Some("In Progress")
  {
    if f.completed == Some(All) then None
    else if f.completed == Some(Complete) then Some("Completed")
    else Some("In Progress")
  }

  /** The badge row (and the clear button) shows exactly when some badge
      does; after clearing, nothing is active. */
  lemma ActiveIffSomeBadge(f: Filters)
    ensures HasActiveFilters(f) <==> SearchBadge(f).Some? || StatusBadge(f).Some?
    ensures !HasActiveFilters(Cleared)
    ensures SearchBadge(Cleared).None? && StatusBadge(Cleared).None?
  {
  }
}

=== FILE: home_page.dfy ===
/** The state of `src/pages/HomePage.tsx`: the current page and filters,
    and the rules that reset the page. The events come from the filter
    bar, the create form and the list's pagination buttons. */
module HomePage {
  import opened Wrappers
  import opened TodoTypes
  import opened QueryCache
  import FilterBar
  import TodoQueries
  import Api

  datatype HomeState = HomeState(page: int, filters: Filters)

  /** Page 1, an empty search, all statuses. */
  const Initial: HomeState := HomeState(1, Filters(Some(""), Some(All)))

  /** `handleFiltersChange`: the new filters verbatim, back to page 1. */
  function OnFiltersChange(st: HomeState, filters: Filters): (r: HomeState)
    ensures r.page == 1 && r.filters == filters
  {
    HomeState(1, filters)
  }

  /** `handleTodoCreated`: back to page 1, filters kept. */
  function OnTodoCreated(st: HomeState): (r: HomeState)
    ensures r.page == 1 && r.filters == st.filters
  {
    st.(page := 1)
  }

  /** `onPageChange`: the requested page, filters kept. */
  function OnPageChange(st: HomeState, page: int): (r: HomeState)
    ensures r.page == page && r.filters == st.filters
  {
    st.(page := page)
  }

  datatype HomeEvent =
    | SearchTyped(text: string)
    | StatusPicked(choice: CompletedFilter)
    | FiltersCleared
    | TodoCreated
    | PageRequested(page: int)

  /** One event of the page: every event but a page request returns to
      page 1; only filter edits change the filters; none of them unsets
      the `completed` value. */
  function Handle(st: HomeState, e: HomeEvent): (r: HomeState)
    ensures e.PageRequested? ==> r.page == e.page
    ensures !e.PageRequested? ==> r.page == 1
    ensures e.PageRequested? || e.TodoCreated? ==> r.filters == st.filters
    ensures st.filters.completed.Some? ==> r.filters.completed.Some?
  {
    match e
    case SearchTyped(t) => OnFiltersChange(st, FilterBar.OnSearchChange(st.filters, t))
    case StatusPicked(c) => OnFiltersChange(st, FilterBar.OnStatusChange(st.filters, c))
    case FiltersCleared => OnFiltersChange(st, FilterBar.Cleared)
    case TodoCreated => OnTodoCreated(st)
    case PageRequested(p) => OnPageChange(st, p)
  }

  /** Every filter edit returns to page 1 and changes exactly the edited
      field. */
  lemma FilterEditsResetPage(st: HomeState, t: string, c: CompletedFilter)
    ensures Handle(st, SearchTyped(t)) == HomeState(1, st.filters.(search := Some(t)))
    ensures Handle(st, StatusPicked(c)) == HomeState(1, st.filters.(completed := Some(c)))
    ensures Handle(st, FiltersCleared) == HomeState(1, Filters(Some(""), Some(All)))
  {
  }

  /** The list query of a home state. */
  function ListQueryOf(st: HomeState): TodoQueries.ListQuery {
    TodoQueries.ListQueryFor(st.page, Some(st.filters))
  }

  /** The invariant of the page: a `completed` value is always chosen. */
  ghost predicate CompletedChosen(st: HomeState) {
    st.filters.completed.Some?
  }

  /** The state after a run of events. */
  function Run(st: HomeState, events: seq<HomeEvent>): HomeState
    decreases |events|
  {
    if |events| == 0 then st else Run(Handle(st, events[0]), events[1..])
  }

  lemma CompletedChosenPreserved(st: HomeState, e: HomeEvent)
    requires CompletedChosen(st)
    ensures CompletedChosen(Handle(st, e))
  {
  }

  /** Every run from a state with a `completed` value keeps one. */
  lemma {:induction false} CompletedChosenRun(st: HomeState, events: seq<HomeEvent>)
    requires CompletedChosen(st)
    ensures CompletedChosen(Run(st, events))
    decreases |events|
  {
    if |events| > 0 {
      CompletedChosenPreserved(st, events[0]);
      CompletedChosenRun(Handle(st, events[0]), events[1..]);
    }
  }

  /** In every reachable state the filter bar shows an active filter
      exactly when the list request carries a search or status parameter.
      (A missing `completed` would show "In Progress" while filtering
      nothing, but the page never reaches such a state.) */
  lemma ActiveIffFilteredRequest(events: seq<HomeEvent>)
    ensures var st := Run(Initial, events);
      FilterBar.HasActiveFilters(st.filters) <==> |ListQueryOf(st).params| > 2
  {
    var st := Run(Initial, events);
    CompletedChosenRun(Initial, events);
    Api.ListParamsShape(Some(st.page), Some(TodoQueries.PageSize), Some(st.filters));
  }

  /** Without that invariant the two disagree. */
  lemma MissingCompletedDisagrees()
    ensures var f := Filters(None, None);
      FilterBar.HasActiveFilters(f) && |Api.ListParams(Some(1), Some(10), Some(f))| == 2
  {
  }
}

=== FILE: push_updates.dfy ===
/** The message handler and send guard of `src/hooks/useWebSocket.ts`:
    each push message becomes cache invalidations or a removal. The
    connection, its reconnect timer and the JSON parser are not modelled;
    a frame arrives already read, or marked unreadable. */
module PushUpdates {
  import opened QueryCache
  import TodoQueries

  /** The `data` of a message: an object with an `id`, or anything else
      (an object without `id`, `null`, a number, ...), for which the `"id"
      in data` test fails or throws after the list invalidation ran. */
  datatype Payload = WithId(id: string) | WithoutId

  /** A frame as the handler sees it. */
  datatype Frame = Message(kind: string, data: Payload) | Unparsable

  /** The cache operations one frame triggers. */
  function FrameActions(f: Frame): (r: seq<CacheAction>)
    ensures f.Unparsable? ==> r == []
    ensures f.Message? && f.kind !in {"todo_created", "todo_updated", "todo_deleted"} ==> r == []
    ensures f.Message? && f.kind in {"todo_created", "todo_updated", "todo_deleted"} ==>
      |r| >= 1 && r[0] == Invalidate(AllLists)
    ensures forall i :: 0 <= i < |r| && r[i].Remove? ==> f.Message? && f.kind == "todo_deleted"
    ensures f.Message? && f.data.WithoutId? ==>
      r == (if f.kind in {"todo_created", "todo_updated", "todo_deleted"} then [Invalidate(AllLists)] else [])
    ensures f.Message? && f.data.WithId? && f.kind in {"todo_created", "todo_updated", "todo_deleted"} ==>
      |r| == 2 && r[1].filter == DetailOf(f.data.id)
  {
    match f
    case Unparsable => []
    case Message(kind, data) =>
      if kind == "todo_created" || kind == "todo_updated" then
        if data.WithId? then [Invalidate(AllLists), Invalidate(DetailOf(data.id))] else [Invalidate(AllLists)]
      else if kind == "todo_deleted" then
        if data.WithId? then [Invalidate(AllLists), Remove(DetailOf(data.id))] else [Invalidate(AllLists)]
      else []
  }

  /** `onmessage`: the cache after one frame. */
  function OnMessage(c: Cache, f: Frame): (r: Cache)
    ensures forall k :: k in r ==> k in c
    ensures FrameActions(f) == [] ==> r == c
  {
    ApplyAll(c, FrameActions(f))
  }

  /** A created or updated message with an id has exactly the effect of a
      successful local update of that id. */
  lemma CreatedOrUpdatedActsLikeUpdate(c: Cache, kind: string, id: string, patch: TodoTypes.UpdateRequest)
    requires kind == "todo_created" || kind == "todo_updated"
    ensures OnMessage(c, Message(kind, WithId(id)))
         == TodoQueries.Settle(c, TodoQueries.UpdateTodo(id, patch), true)
  {
  }

  /** A deleted message with an id removes that detail entry, rather than
      marking it stale, marks every list entry stale and keeps everything
      else. */
  lemma DeletedRemovesDetail(c: Cache, id: string)
    ensures var r := OnMessage(c, Message("todo_deleted", WithId(id)));
      && TodoKey(id) !in r
      && r.Keys == c.Keys - {TodoKey(id)}
      && forall k :: k in r ==> r[k] == (if k.TodosKey? then Stale else c[k])
  {
    var a := Invalidate(AllLists);
    var b := Remove(DetailOf(id));
    TodoQueries.ApplyTwo(c, a, b);
    forall k | k in c
      ensures Matches(AllLists, k) <==> k.TodosKey?
      ensures Matches(DetailOf(id), k) <==> k == TodoKey(id)
    {
      AllListsSelectsLists(k);
      DetailOfSelectsOne(id, k);
    }
    DetailOfSelectsOne(id, TodoKey(id));
  }

  /** A known message whose data carries no id only marks the lists
      stale: every detail entry and the user entry stay as they were. */
  lemma NoIdTouchesOnlyLists(c: Cache, kind: string)
    requires kind == "todo_created" || kind == "todo_updated" || kind == "todo_deleted"
    ensures var r := OnMessage(c, Message(kind, WithoutId));
      r.Keys == c.Keys && forall k :: k in c ==> r[k] == (if k.TodosKey? then Stale else c[k])
  {
    TodoQueries.ApplyOne(c, Invalidate(AllLists));
    forall k | k in c
      ensures Matches(AllLists, k) <==> k.TodosKey?
    {
      AllListsSelectsLists(k);
    }
  }

  /** Unknown message types and unreadable frames leave the cache as it was. */
  lemma IgnoredFramesKeepCache(c: Cache, kind: string, data: Payload)
    requires kind != "todo_created" && kind != "todo_updated" && kind != "todo_deleted"
    ensures OnMessage(c, Message(kind, data)) == c
    ensures OnMessage(c, Unparsable) == c
  {
  }

  /** `WebSocket.readyState`; `NoSocket` is an empty ref. */
  datatype Socket = NoSocket | Connecting | Open | Closing | Closed

  /** `sendMessage`: the serialised message joins the outgoing frames only
      on an open connection, and is silently dropped otherwise. */
  function SendMessage(socket: Socket, sent: seq<string>, json: string): (r: seq<string>)
    ensures |sent| <= |r| <= |sent| + 1 && r[..|sent|] == sent
    ensures |r| > |sent| <==> socket == Open
    ensures |r| > |sent| ==> r[|sent|] == json
  {
    if socket == Open then sent + [json] else sent
  }
}

=== FILE: query_cache.dfy ===
/** The part of the react-query cache the client touches: entries keyed by
    query key, each fresh or stale, and the two bulk operations it calls,
    `invalidateQueries` (mark stale) and `removeQueries` (drop), both
    selecting entries by a key filter.

    Assumption about the library, which is not part of this model: a
    filter `[a, b, ...]` selects every key whose array starts with `a, b,
    ...`, comparing elements by value. */
module QueryCache {
  import opened Wrappers
  import opened TodoTypes

  /** One element of a query-key array. */
  datatype KeyPart = Word(text: string) | Number(n: int) | FilterObject(filters: Option<Filters>)

  /** The keys the client uses: `["todos", page, filters]`, `["todo", id]`
      and `["user"]`. */
  datatype QueryKey = TodosKey(page: int, filters: Option<Filters>) | TodoKey(id: string) | UserKey

  function Parts(k: QueryKey): seq<KeyPart> {
    match k
    case TodosKey(page, filters) => [Word("todos"), Number(page), FilterObject(filters)]
    case TodoKey(id) => [Word("todo"), Word(id)]
    case UserKey => [Word("user")]
  }

  /** Distinct keys have distinct arrays, so they name distinct cache slots. */
  lemma PartsInjective(a: QueryKey, b: QueryKey)
    ensures Parts(a) == Parts(b) <==> a == b
  {
    if Parts(a) == Parts(b) {
      assert Parts(a)[0] == Parts(b)[0];
      assert |Parts(a)| == |Parts(b)|;
      if a.TodosKey? || a.TodoKey? {
        assert Parts(a)[1] == Parts(b)[1];
      }
      if a.TodosKey? {
        assert Parts(a)[2] == Parts(b)[2];
      }
    }
  }

  /** The library's prefix match of a key filter against a key. */
  predicate Matches(filter: seq<KeyPart>, k: QueryKey) {
    filter <= Parts(k)
  }

  /** The filter `["todos"]`. */
  const AllLists: seq<KeyPart> := [Word("todos")]

  /** The filter `["todo", id]`. */
  function DetailOf(id: string): seq<KeyPart> {
    [Word("todo"), Word(id)]
  }

  /** `["todos"]` selects every list key, whatever its page and filters, and
      nothing else: in particular no `["todo", id]` key. */
  lemma AllListsSelectsLists(k: QueryKey)
    ensures Matches(AllLists, k) <==> k.TodosKey?
  {
    if Matches(AllLists, k) {
      assert Parts(k)[0] == Word("todos");
      assert "todo" != "todos";
    }
  }

  /** `["todo", id]` selects that one detail key. */
  lemma DetailOfSelectsOne(id: string, k: QueryKey)
    ensures Matches(DetailOf(id), k) <==> k == TodoKey(id)
  {
    if Matches(DetailOf(id), k) {
      assert Parts(k)[0] == Word("todo") && Parts(k)[1] == Word(id);
      assert "todo" != "todos";
    }
  }

  datatype Freshness = Fresh | Stale

  type Cache = map<QueryKey, Freshness>

  datatype CacheAction =
    | Invalidate(filter: seq<KeyPart>)   // invalidateQueries({ queryKey: filter })
    | Remove(filter: seq<KeyPart>)       // removeQueries({ queryKey: filter })

  /** One bulk operation: selected entries become stale (invalidate) or
      disappear (remove); no entry is created; every other entry is kept
      as it was. */
  function Apply(c: Cache, a: CacheAction): (r: Cache)
    ensures forall k :: k in r ==> k in c
    ensures forall k :: k in c && !Matches(a.filter, k) ==> k in r && r[k] == c[k]
    ensures forall k :: k in c && Matches(a.filter, k) ==>
      if a.Invalidate? then k in r && r[k] == Stale else k !in r
  {
    match a
    case Invalidate(f) => map k | k in c :: if Matches(f, k) then Stale else c[k]
    case Remove(f) => map k | k in c && !Matches(f, k) :: c[k]
  }

  /** No operation of the run selects `k`. */
  predicate Untouched(actions: seq<CacheAction>, k: QueryKey) {
    forall i :: 0 <= i < |actions| ==> !Matches(actions[i].filter, k)
  }

  /** Operations run in order. An entry no operation selects is untouched;
      a run of invalidations keeps every entry. */
  function ApplyAll(c: Cache, actions: seq<CacheAction>): (r: Cache)
    ensures forall k :: k in r ==> k in c
    ensures forall k :: k in c && Untouched(actions, k) ==> k in r && r[k] == c[k]
    ensures (forall i :: 0 <= i < |actions| ==> actions[i].Invalidate?) ==> r.Keys == c.Keys
    decreases |actions|
  {
    if |actions| == 0 then c
    else
      var r := ApplyAll(Apply(c, actions[0]), actions[1..]);
      assert forall i :: 1 <= i < |actions| ==> actions[1..][i - 1] == actions[i];
      r
  }

  /** `setQueryData(key, ...)`: the entry now holds fresh data. */
  function SetData(c: Cache, k: QueryKey): (r: Cache)
    ensures k in r && r[k] == Fresh
    ensures r.Keys == c.Keys + {k}
    ensures forall k' :: k' in c && k' != k ==> r[k'] == c[k']
  {
    c[k := Fresh]
  }

  /** Invalidating or removing twice is doing it once. */
  lemma ApplyIdempotent(c: Cache, a: CacheAction)
    ensures Apply(Apply(c, a), a) == Apply(c, a)
  {
    var once := Apply(c, a);
    var twice := Apply(once, a);
    assert twice.Keys == once.Keys;
  }

  /** Invalidations commute, so their order never matters. */
  lemma InvalidationsCommute(c: Cache, f: seq<KeyPart>, g: seq<KeyPart>)
    ensures Apply(Apply(c, Invalidate(f)), Invalidate(g)) == Apply(Apply(c, Invalidate(g)), Invalidate(f))
  {
    var fg := Apply(Apply(c, Invalidate(f)), Invalidate(g));
    var gf := Apply(Apply(c, Invalidate(g)), Invalidate(f));
    assert fg.Keys == gf.Keys;
  }
}

=== FILE: session_store.dfy ===
/** The browser's `localStorage` as the client uses it: a string-to-string
    map holding the access token under `auth_token` and the refresh token
    under `refresh_token`, beside whatever else the page stores. */
module SessionStore {
  import opened Wrappers

  type Storage = map<string, string>

  const AuthTokenKey: string := "auth_token"
  const RefreshTokenKey: string := "refresh_token"

  /** `localStorage.getItem(key)`: `null` becomes `None`. */
  function GetItem(s: Storage, key: string): (r: Option<string>)
    ensures r.Some? <==> key in s
    ensures r.Some? ==> r.value == s[key]
  {
    if key in s then Some(s[key]) else None
  }

  /** `if (token)` on the stored access token: JavaScript treats a missing
      value and the empty string alike as false. */
  predicate HasAuthToken(s: Storage) {
    AuthTokenKey in s && s[AuthTokenKey] != ""
  }

  /** Both `setItem` calls of a successful sign-in. */
  function StoreTokens(s: Storage, token: string, refresh: string): (r: Storage)
    ensures GetItem(r, AuthTokenKey) == Some(token)
    ensures GetItem(r, RefreshTokenKey) == Some(refresh)
    ensures r.Keys == s.Keys + {AuthTokenKey, RefreshTokenKey}
    ensures forall k :: k in s && k != AuthTokenKey && k != RefreshTokenKey ==> r[k] == s[k]
  {
    s[AuthTokenKey := token][RefreshTokenKey := refresh]
  }

  /** Both `removeItem` calls: every other stored item survives. */
  function RemoveTokens(s: Storage): (r: Storage)
    ensures GetItem(r, AuthTokenKey).None? && GetItem(r, RefreshTokenKey).None?
    ensures !HasAuthToken(r)
    ensures r.Keys == s.Keys - {AuthTokenKey, RefreshTokenKey}
    ensures forall k :: k in r ==> r[k] == s[k]
  {
    s - {AuthTokenKey, RefreshTokenKey}
  }

  /** Removing the tokens is idempotent and erases whatever was stored
      before, so a sign-in followed by a removal leaves no trace of it. */
  lemma RemoveTokensAbsorbs(s: Storage, token: string, refresh: string)
    ensures RemoveTokens(RemoveTokens(s)) == RemoveTokens(s)
    ensures RemoveTokens(StoreTokens(s, token, refresh)) == RemoveTokens(s)
  {
    assert RemoveTokens(RemoveTokens(s)).Keys == RemoveTokens(s).Keys;
    assert RemoveTokens(StoreTokens(s, token, refresh)).Keys == RemoveTokens(s).Keys;
  }
}

=== FILE: text.dfy ===
/** `String.prototype.trim`: removal of leading and trailing white space
    and line terminators as ECMAScript defines them. */
module Text {

  /** ECMAScript WhiteSpace (TAB, VT, FF, ZWNBSP and every Unicode space
      separator) and LineTerminator (LF, CR, LS, PS) code points. */
  predicate IsTrimmable(c: char) {
    || c == ' ' || c == '\t' || c == '\n' || c == '\r'
    || c as int == 0x0B || c as int == 0x0C || c as int == 0xA0
    || c as int == 0x1680 || 0x2000 <= c as int <= 0x200A
    || c as int == 0x2028 || c as int == 0x2029 || c as int == 0x202F
    || c as int == 0x205F || c as int == 0x3000 || c as int == 0xFEFF
  }

  predicate AllTrimmable(s: string) {
    forall i :: 0 <= i < |s| ==> IsTrimmable(s[i])
  }

  /** `s` without its leading trimmable characters. */
  function TrimStart(s: string): (r: string)
    ensures |r| <= |s| && r == s[|s| - |r|..]
    ensures AllTrimmable(s[..|s| - |r|])
    ensures r == [] || !IsTrimmable(r[0])
    decreases |s|
  {
    if |s| > 0 && IsTrimmable(s[0]) then TrimStart(s[1..]) else s
  }

  /** `s` without its trailing trimmable characters. */
  function TrimEnd(s: string): (r: string)
    ensures |r| <= |s| && r == s[..|r|]
    ensures AllTrimmable(s[|r|..])
    ensures r == [] || !IsTrimmable(r[|r| - 1])
    decreases |s|
  {
    if |s| > 0 && IsTrimmable(s[|s| - 1]) then TrimEnd(s[..|s| - 1]) else s
  }

  /** `s.trim()`: the middle of `s` once the white space around it is cut. */
  function Trim(s: string): (r: string)
    ensures |r| <= |s|
    ensures r == [] || (!IsTrimmable(r[0]) && !IsTrimmable(r[|r| - 1]))
    ensures exists i, j :: 0 <= i <= j <= |s| && r == s[i..j] && AllTrimmable(s[..i]) && AllTrimmable(s[j..])
  {
    var a := TrimStart(s);
    var r := TrimEnd(a);
    var i := |s| - |a|;
    var j := i + |r|;
    assert r == s[i..j] && s[j..] == a[|r|..];
    r
  }

  /** The trimmed text is empty exactly when the input is white space only. */
  lemma TrimEmptyIffBlank(s: string)
    ensures Trim(s) == [] <==> AllTrimmable(s)
  {
    var a := TrimStart(s);
    if Trim(s) == [] {
      assert AllTrimmable(a[0..]);
      assert a == [];
      assert s[..|s|] == s;
    }
  }

  /** Trimming twice is trimming once. */
  lemma TrimIdempotent(s: string)
    ensures Trim(Trim(s)) == Trim(s)
  {
    var r := Trim(s);
    assert TrimStart(r) == r;
    assert TrimEnd(r) == r;
  }
}

=== FILE: todo_details_view.dfy ===
/** The detail page of `src/components/TodoDetails.tsx` reduced to its
    decisions: view precedence, the status-only toggle patch, the edit /
    save / cancel state machine, the status label and detail rows, and
    the confirmed delete that navigates home on success. */
module TodoDetailsView {
  import opened Wrappers
  import opened TodoTypes
  import TodoQueries
  import TodoListView

  datatype DetailView = Spinner | LoadFailed | Details(todo: Todo)

  /** Loading wins; then an error or a missing todo; then the details. */
  function View(isLoading: bool, failed: bool, todo: Option<Todo>): (v: DetailView)
    ensures isLoading ==> v.Spinner?
    ensures !isLoading && (failed || todo.None?) ==> v.LoadFailed?
    ensures v.Details? <==> !isLoading && !failed && todo.Some?
    ensures v.Details? ==> v.todo == todo.value
  {
    if isLoading then Spinner
    else if failed || todo.None? then LoadFailed
    else Details(todo.value)
  }

  /** `handleToggleComplete`: a patch carrying the toggled status alone. */
  function TogglePatch(todo: Todo): (m: TodoQueries.Mutation)
    ensures m.UpdateTodo? && m.id == todo.id
    ensures UpdateKeys(m.patch) == {StatusKey}
    ensures m.patch.status == Some(TodoQueries.Toggle(todo.status))
  {
    TodoQueries.UpdateTodo(todo.id, StatusOnly(TodoQueries.Toggle(todo.status)))
  }

  /** The list and detail toggles ask for the same status, but the list's
      payload overwrites every other field while the detail's touches none. */
  lemma TogglesAgreeOnStatusOnly(todo: Todo)
    ensures var list := TodoQueries.CallOf(TodoQueries.ToggleStatus(todo.id, todo.status));
      var detail := TodoQueries.CallOf(TogglePatch(todo));
      && list.UpdateTask? && detail.UpdateTask? && list.id == detail.id
      && list.patch.status == detail.patch.status
      && UpdateKeys(detail.patch) < UpdateKeys(list.patch)
  {
    assert NameKey in AllBodyKeys;
  }

  datatype EditState = EditState(isEditing: bool, name: string, description: string)

  const NotEditing: EditState := EditState(false, "", "")

  /** `todo.description || ""`. */
  function DescriptionText(d: Field<string>): (r: string)
    ensures d.Present? ==> r == d.value
    ensures !d.Present? ==> r == ""
  {
    if d.Present? then d.value else ""
  }

  /** `handleEdit`: copy name and description into the fields; a missing
      or null description becomes "". */
  function StartEdit(todo: Todo): (r: EditState)
    ensures r.isEditing && r.name == todo.name
    ensures r.description == DescriptionText(todo.description)
  {
    EditState(true, todo.name, DescriptionText(todo.description))
  }

  /** `handleSave`: send the fields as they are, with no trimming or
      emptiness check, and leave edit mode at once, before the update
      settles. */
  function Save(st: EditState, todo: Todo): (r: (EditState, TodoQueries.Mutation))
    ensures !r.0.isEditing && r.0.name == st.name && r.0.description == st.description
    ensures r.1.UpdateTodo? && r.1.id == todo.id
    ensures UpdateKeys(r.1.patch) == {NameKey, DescriptionKey}
    ensures r.1.patch.name == Some(st.name) && r.1.patch.description == Present(st.description)
  {
    (st.(isEditing := false),
     TodoQueries.UpdateTodo(todo.id, EmptyPatch.(name := Some(st.name), description := Present(st.description))))
  }

  /** `handleCancel`: leave edit mode and clear both fields; nothing is sent. */
  function Cancel(st: EditState): (r: EditState)
    ensures !r.isEditing && r.name == "" && r.description == ""
  {
    NotEditing
  }

  /** Editing and saving without a change sends the todo's own name and its
      description text, even a blank name. */
  lemma EditThenSaveSendsCopy(todo: Todo)
    ensures var m := Save(StartEdit(todo), todo).1;
      m.patch.name == Some(todo.name) && m.patch.description == Present(DescriptionText(todo.description))
  {
  }

  /** The status badge: "Completed" for COMPLETED; TODO and IN_PROGRESS
      both read "In Progress". */
  function StatusLabel(s: Status): (r: string)
    ensures r == "Completed" <==> s == COMPLETED
    ensures r != "Completed" ==> r == "In Progress"
  {
    if s == COMPLETED then "Completed" else "In Progress"
  }

  /** The label loses information: TODO and IN_PROGRESS look alike. */
  lemma LabelConflatesOpenStatuses()
    ensures StatusLabel(TODO) == StatusLabel(IN_PROGRESS)
  {
  }

  /** The headings of the detail grid, in order. "Updated" appears when
      `updatedAt !== createdAt` (so an absent and a null stamp differ);
      "User" when the owner is a non-empty string. */
  function Rows(todo: Todo): (r: seq<string>)
    ensures |r| >= 2 && r[0] == "Status" && r[1] == "Created"
    ensures "Updated" in r <==> todo.updatedAt != todo.createdAt
    ensures "User" in r <==> todo.owner.Present? && todo.owner.value != ""
  {
    ["Status", "Created"]
    + (if todo.updatedAt != todo.createdAt then ["Updated"] else [])
    + (if todo.owner.Present? && todo.owner.value != "" then ["User"] else [])
  }

  datatype Navigation = StayOnDetails | GoHome

  /** `handleDelete` behind the delete button, which is disabled while a
      delete is pending: a click then does nothing, not even ask. Otherwise
      a delete starts only after confirmation, and navigation home follows
      only once that delete has succeeded. */
  function DeleteFlow(todo: Todo, pending: bool, confirmed: bool, succeeded: bool): (r: (Option<TodoQueries.Mutation>, Navigation))
    ensures r.0.Some? <==> !pending && confirmed
    ensures r.0.Some? ==> r.0.value == TodoQueries.DeleteTodo(todo.id)
    ensures r.1 == GoHome <==> !pending && confirmed && succeeded
  {
    if pending || !confirmed then (None, StayOnDetails)
    else (Some(TodoQueries.DeleteTodo(todo.id)), if succeeded then GoHome else StayOnDetails)
  }

  /** The list's delete button and an idle detail delete button start the
      same mutation for the same answer; only the detail button also has
      a pending guard. */
  lemma DeleteButtonsAgree(todo: Todo, confirmed: bool, succeeded: bool)
    ensures DeleteFlow(todo, false, confirmed, succeeded).0 == TodoListView.DeleteClick(todo, confirmed)
    ensures DeleteFlow(todo, true, confirmed, succeeded).0.None?
  {
  }
}

=== FILE: todo_list_view.dfy ===
/** The list of `src/components/TodoList.tsx` reduced to its decisions:
    which view shows, when the pagination bar appears and what its buttons
    request, and which mutation a row's buttons start. */
module TodoListView {
  import opened Wrappers
  import opened TodoTypes
  import TodoQueries

  /** The pagination bar: the label numbers and the two button states. */
  datatype Pager = Pager(page: int, totalPages: int, previousEnabled: bool, nextEnabled: bool)

  datatype ListView = Spinner | LoadFailed | NoTodos | Items(todos: seq<Todo>, pager: Option<Pager>)

  /** Loading wins over an error, an error over an empty list, and only a
      non-empty page lists its todos, with a pager when there is more than
      one page. */
  function View(isLoading: bool, failed: bool, data: Option<PaginatedResponse>): (v: ListView)
    ensures isLoading ==> v.Spinner?
    ensures !isLoading && failed ==> v.LoadFailed?
    ensures !isLoading && !failed && (data.None? || data.value.data == []) ==> v.NoTodos?
    ensures !isLoading && !failed && data.Some? && data.value.data != [] ==>
      v.Items? && v.todos == data.value.data
    ensures v.Items? ==> (v.pager.Some? <==> data.value.meta.totalPages > 1)
    ensures v.Items? && v.pager.Some? ==>
      v.pager.value.page == data.value.meta.page
      && v.pager.value.totalPages == data.value.meta.totalPages
      && v.pager.value.previousEnabled == data.value.meta.hasPreviousPage
      && v.pager.value.nextEnabled == data.value.meta.hasNextPage
  {
    if isLoading then Spinner
    else if failed then LoadFailed
    else if data.None? || data.value.data == [] then NoTodos
    else
      var meta := data.value.meta;
      var pager := if meta.totalPages > 1
        then Some(Pager(meta.page, meta.totalPages, meta.hasPreviousPage, meta.hasNextPage))
        else None;
      Items(data.value.data, pager)
  }

  /** "Previous": page − 1 of the page being shown, unless the server says
      there is no previous page. */
  function PreviousClick(page: int, meta: PaginationMeta): (r: Option<int>)
    ensures r.Some? <==> meta.hasPreviousPage
    ensures r.Some? ==> r.value == page - 1
  {
    if meta.hasPreviousPage then Some(page - 1) else None
  }

  /** "Next": page + 1, unless the server says there is no next page. */
  function NextClick(page: int, meta: PaginationMeta): (r: Option<int>)
    ensures r.Some? <==> meta.hasNextPage
    ensures r.Some? ==> r.value == page + 1
  {
    if meta.hasNextPage then Some(page + 1) else None
  }

  /** The buttons trust the server's flags alone: totals, the reported page
      and the limit play no part, so the client enforces no relation among
      them. */
  lemma ButtonsFollowFlagsOnly(page: int, a: PaginationMeta, b: PaginationMeta)
    requires a.hasNextPage == b.hasNextPage && a.hasPreviousPage == b.hasPreviousPage
    ensures NextClick(page, a) == NextClick(page, b)
    ensures PreviousClick(page, a) == PreviousClick(page, b)
  {
  }

  /** Previous then next returns to the same page. */
  lemma PreviousThenNext(page: int, a: PaginationMeta, b: PaginationMeta)
    requires a.hasPreviousPage && b.hasNextPage
    ensures NextClick(PreviousClick(page, a).value, b) == Some(page)
  {
  }

  /** A row's checkbox: the toggle mutation for the row's id and its
      current status, unchanged. */
  function ToggleClick(todo: Todo): (m: TodoQueries.Mutation)
    ensures m.ToggleStatus? && m.id == todo.id && m.current == todo.status
  {
    TodoQueries.ToggleStatus(todo.id, todo.status)
  }

  /** A row's delete button: a delete of the row's id once the user
      confirms, nothing otherwise. */
  function DeleteClick(todo: Todo, confirmed: bool): (r: Option<TodoQueries.Mutation>)
    ensures r.Some? <==> confirmed
    ensures r.Some? ==> r.value == TodoQueries.DeleteTodo(todo.id)
  {
    if confirmed then Some(TodoQueries.DeleteTodo(todo.id)) else None
  }

  /** The list checkbox sends a full overwrite payload whose status is the
      toggle of the row's status. */
  lemma RowToggleSends(todo: Todo)
    ensures var c := TodoQueries.CallOf(ToggleClick(todo));
      c.UpdateTask? && c.id == todo.id
      && c.patch.status == Some(TodoQueries.Toggle(todo.status))
      && UpdateKeys(c.patch) == AllBodyKeys
  {
  }
}

=== FILE: todo_queries.dfy ===
/** The query and mutation hooks of `src/hooks/useTodos.ts`: the list and
    detail queries with their cache keys, the status toggle and its
    payload, and the cache entries each successful mutation invalidates.
    A failed mutation has no handler and so changes no entry. */
module TodoQueries {
  import opened Wrappers
  import opened TodoTypes
  import opened Decimal
  import opened QueryCache
  import Api

  /** The page size of the list query. */
  const PageSize: int := 10

  datatype ListQuery = ListQuery(key: QueryKey, params: seq<Api.Param>)

  /** `useTodos(page, filters)`: key `["todos", page, filters]`, and a fetch
      of that page with ten items per page. */
  function ListQueryFor(page: int, filters: Option<Filters>): (q: ListQuery)
    ensures q.key == TodosKey(page, filters) && Matches(AllLists, q.key)
    ensures Api.Lookup(q.params, "page") == Some(IntToString(page))
    ensures Api.Lookup(q.params, "limit") == Some("10")
    ensures q.params == Api.ListParams(Some(page), Some(PageSize), filters)
    ensures Api.DecodeListParams(q.params)
         == Some(Api.ListRequest(page, PageSize, Api.SearchTerm(filters), Api.RequestedStatus(filters)))
  {
    var params := Api.ListParams(Some(page), Some(PageSize), filters);
    Api.ListParamsRoundTrip(Some(page), Some(PageSize), filters);
    assert params[1..][0] == params[1];
    assert IntToString(PageSize) == "10" by {
      assert NatToString(1) == ['1'];
      assert DigitChar(0) == '0';
    }
    ListQuery(TodosKey(page, filters), params)
  }

  datatype DetailQuery = DetailQuery(key: QueryKey, enabled: bool)

  /** `useTodo(id)`: key `["todo", id]`; disabled for an empty id. */
  function DetailQueryFor(id: string): (q: DetailQuery)
    ensures Matches(DetailOf(id), q.key) && !Matches(AllLists, q.key)
    ensures q.enabled <==> id != ""
  {
    DetailOfSelectsOne(id, TodoKey(id));
    AllListsSelectsLists(TodoKey(id));
    DetailQuery(TodoKey(id), id != "")
  }

  /** The toggle target: a completed todo goes back to TODO, anything else
      is completed. */
  function Toggle(s: Status): (r: Status)
    ensures r != IN_PROGRESS
    ensures r == TODO <==> s == COMPLETED
  {
    if s == COMPLETED then TODO else COMPLETED
  }

  /** Toggling twice undoes a toggle of TODO or COMPLETED, but an
      IN_PROGRESS todo comes back as TODO. */
  lemma ToggleTwice(s: Status)
    ensures s != IN_PROGRESS ==> Toggle(Toggle(s)) == s
    ensures Toggle(Toggle(IN_PROGRESS)) == TODO
  {
  }

  /** The body the list toggle sends: the toggled status plus a full
      overwrite of every other field with fixed values. */
  function TogglePayload(current: Status): (p: UpdateRequest)
    ensures p.status == Some(Toggle(current))
    ensures UpdateKeys(p) == AllBodyKeys
    ensures p.name == Some("") && p.priority == Some(LOW) && p.archived == Some(false)
    ensures p.children == Present("")
    ensures p.description == Null && p.start == Null && p.end == Null && p.duration == Null
    ensures p.isDefault == Null && p.parentId == Null && p.owner == Null && p.tags == Null
    ensures p.completedAt == Null
  {
    UpdateRequest(
      name := Some(""),
      description := Null,
      start := Null,
      end := Null,
      duration := Null,
      priority := Some(LOW),
      status := Some(Toggle(current)),
      archived := Some(false),
      isDefault := Null,
      parentId := Null,
      children := Present(""),
      owner := Null,
      tags := Null,
      completedAt := Null)
  }

  /** The four mutation hooks. */
  datatype Mutation =
    | CreateTodo(create: CreateRequest)
    | UpdateTodo(id: string, patch: UpdateRequest)
    | DeleteTodo(id: string)
    | ToggleStatus(id: string, current: Status)

  /** The request each mutation sends: a toggle is a PATCH of its id. */
  function CallOf(m: Mutation): (c: Api.Call)
    ensures m.ToggleStatus? ==> c == Api.UpdateTask(m.id, TogglePayload(m.current))
    ensures m.UpdateTodo? ==> c == Api.UpdateTask(m.id, m.patch)
    ensures m.DeleteTodo? ==> c == Api.DeleteTask(m.id)
    ensures m.CreateTodo? ==> c == Api.CreateTask(m.create)
    ensures m.CreateTodo? ==> Api.Method(c) == "POST" && Api.TaskIdOf(Api.Path(c)).None?
    ensures (m.UpdateTodo? || m.ToggleStatus?) ==> Api.Method(c) == "PATCH" && Api.TaskIdOf(Api.Path(c)) == Some(m.id)
    ensures m.DeleteTodo? ==> Api.Method(c) == "DELETE" && Api.TaskIdOf(Api.Path(c)) == Some(m.id)
  {
    var c := match m
      case CreateTodo(r) => Api.CreateTask(r)
      case UpdateTodo(id, p) => Api.UpdateTask(id, p)
      case DeleteTodo(id) => Api.DeleteTask(id)
      case ToggleStatus(id, s) => Api.UpdateTask(id, TogglePayload(s));
    Api.PathAddressesTask(c);
    c
  }

  /** The `onSuccess` handler of each mutation. */
  function SuccessActions(m: Mutation): (r: seq<CacheAction>)
    ensures |r| >= 1 && r[0] == Invalidate(AllLists)
    ensures forall i :: 0 <= i < |r| ==> r[i].Invalidate?
  {
    match m
    case CreateTodo(_) => [Invalidate(AllLists)]
    case DeleteTodo(_) => [Invalidate(AllLists)]
    case UpdateTodo(id, _) => [Invalidate(AllLists), Invalidate(DetailOf(id))]
    case ToggleStatus(id, _) => [Invalidate(AllLists), Invalidate(DetailOf(id))]
  }

  /** The cache once a mutation has settled. */
  function Settle(c: Cache, m: Mutation, succeeded: bool): (r: Cache)
    ensures r.Keys == c.Keys
    ensures !succeeded ==> r == c
  {
    if succeeded then ApplyAll(c, SuccessActions(m)) else c
  }

  /** Unrolls a run of one invalidation. */
  lemma ApplyOne(c: Cache, a: CacheAction)
    ensures ApplyAll(c, [a]) == Apply(c, a)
  {
    assert [a][1..] == [];
  }

  /** Unrolls a run of two invalidations. */
  lemma ApplyTwo(c: Cache, a: CacheAction, b: CacheAction)
    ensures ApplyAll(c, [a, b]) == Apply(Apply(c, a), b)
  {
    assert [a, b][1..] == [b];
    ApplyOne(Apply(c, a), b);
  }

  /** A successful create or delete marks every list entry stale and
      leaves every other entry, every detail entry included, as it was. */
  lemma CreateOrDeleteMarksOnlyLists(c: Cache, m: Mutation)
    requires m.CreateTodo? || m.DeleteTodo?
    ensures var r := Settle(c, m, true);
      r.Keys == c.Keys && forall k :: k in c ==> r[k] == (if k.TodosKey? then Stale else c[k])
  {
    ApplyOne(c, Invalidate(AllLists));
    forall k | k in c
      ensures Matches(AllLists, k) <==> k.TodosKey?
    {
      AllListsSelectsLists(k);
    }
  }

  /** A successful update or toggle marks every list entry and the detail
      entry of its own id stale; other detail entries are unchanged. */
  lemma UpdateOrToggleMarksListsAndOwnDetail(c: Cache, m: Mutation)
    requires m.UpdateTodo? || m.ToggleStatus?
    ensures var r := Settle(c, m, true);
      r.Keys == c.Keys
      && forall k :: k in c ==> r[k] == (if k.TodosKey? || k == TodoKey(m.id) then Stale else c[k])
  {
    ApplyTwo(c, Invalidate(AllLists), Invalidate(DetailOf(m.id)));
    forall k | k in c
      ensures Matches(AllLists, k) <==> k.TodosKey?
      ensures Matches(DetailOf(m.id), k) <==> k == TodoKey(m.id)
    {
      AllListsSelectsLists(k);
      DetailOfSelectsOne(m.id, k);
    }
  }

  /** A rejected update or delete reaches the caller as the very error the
      server sent and leaves the cache as it was; a resolved one runs the
      success handler. */
  lemma OutcomeDecidesSettle(c: Cache, id: string, patch: UpdateRequest,
                             updated: Result<Todo, Api.ApiError>, deleted: Result<(), Api.ApiError>)
    ensures var out := Api.UpdateOutcome(updated);
      && (updated.Err? ==> out.Err? && out.error == updated.error
                           && Settle(c, UpdateTodo(id, patch), out.Ok?) == c)
      && (updated.Ok? ==> Settle(c, UpdateTodo(id, patch), out.Ok?) == ApplyAll(c, SuccessActions(UpdateTodo(id, patch))))
    ensures var out := Api.DeleteOutcome(deleted);
      && (deleted.Err? ==> out.Err? && out.error == deleted.error
                           && Settle(c, DeleteTodo(id), out.Ok?) == c)
      && (deleted.Ok? ==> Settle(c, DeleteTodo(id), out.Ok?) == ApplyAll(c, SuccessActions(DeleteTodo(id))))
  {
  }
}

=== FILE: todo_types.dfy ===
/** The todo domain as the REST API exchanges it: the task record, its
    status and priority enumerations, the create and update request
    bodies, a paginated list page and the list filters. */
module TodoTypes {
  import opened Wrappers

  /** Priority: exactly one of the three wire values. */
  datatype Priority = LOW | MEDIUM | HIGH

  /** Status: exactly one of the three wire values. */
  datatype Status = TODO | IN_PROGRESS | COMPLETED

  /** A JSON field declared `name?: T | null`: left out of the object, sent
      as `null`, or carrying a value. */
  datatype Field<T> = Absent | Null | Present(value: T)

  /** The server's task record. `duration` is a whole number here. */
  datatype Todo = Todo(
    id: string,
    name: string,
    description: Field<string>,
    start: Field<string>,
    end: Field<string>,
    duration: Field<int>,
    priority: Priority,
    status: Status,
    archived: bool,
    isDefault: Field<bool>,
    parentId: Field<string>,
    children: Field<string>,
    owner: Field<string>,
    tags: Field<seq<string>>,
    completedAt: Field<string>,
    createdAt: Field<string>,
    updatedAt: Field<string>)

  /** Body of `POST /tasks`: only `name` is required. */
  datatype CreateRequest = CreateRequest(
    name: string,
    description: Field<string>,
    start: Field<string>,
    end: Field<string>,
    duration: Field<int>,
    priority: Option<Priority>,
    status: Option<Status>,
    archived: Option<bool>,
    isDefault: Field<bool>,
    parentId: Field<string>,
    children: Field<string>,
    owner: Field<string>,
    tags: Field<seq<string>>,
    completedAt: Field<string>)

  /** Body of `PATCH /tasks/{id}`: every field is optional. */
  datatype UpdateRequest = UpdateRequest(
    name: Option<string>,
    description: Field<string>,
    start: Field<string>,
    end: Field<string>,
    duration: Field<int>,
    priority: Option<Priority>,
    status: Option<Status>,
    archived: Option<bool>,
    isDefault: Field<bool>,
    parentId: Field<string>,
    children: Field<string>,
    owner: Field<string>,
    tags: Field<seq<string>>,
    completedAt: Field<string>)

  /** Pagination metadata of a list page; the client relies on no relation
      among these numbers and flags. */
  datatype PaginationMeta = PaginationMeta(
    total: int,
    page: int,
    limit: int,
    totalPages: int,
    hasNextPage: bool,
    hasPreviousPage: bool)

  datatype PaginatedResponse = PaginatedResponse(data: seq<Todo>, meta: PaginationMeta)

  /** The completion filter of the list view. */
  datatype CompletedFilter = All | Complete | Incomplete

  /** List filters; both fields may be absent. */
  datatype Filters = Filters(search: Option<string>, completed: Option<CompletedFilter>)

  function StatusName(s: Status): string {
    match s
    case TODO => "TODO"
    case IN_PROGRESS => "IN_PROGRESS"
    case COMPLETED => "COMPLETED"
  }

  function ParseStatus(t: string): (r: Option<Status>)
    ensures r.Some? <==> t in {"TODO", "IN_PROGRESS", "COMPLETED"}
  {
    if t == "TODO" then Some(TODO)
    else if t == "IN_PROGRESS" then Some(IN_PROGRESS)
    else if t == "COMPLETED" then Some(COMPLETED)
    else None
  }

  /** The wire names of the statuses and their reading are inverse. */
  lemma StatusNameRoundTrip(s: Status, t: string)
    ensures ParseStatus(StatusName(s)) == Some(s)
    ensures ParseStatus(t) == Some(s) <==> t == StatusName(s)
  {
  }

  function PriorityName(p: Priority): string {
    match p
    case LOW => "LOW"
    case MEDIUM => "MEDIUM"
    case HIGH => "HIGH"
  }

  function ParsePriority(t: string): (r: Option<Priority>)
    ensures r.Some? <==> t in {"LOW", "MEDIUM", "HIGH"}
  {
    if t == "LOW" then Some(LOW)
    else if t == "MEDIUM" then Some(MEDIUM)
    else if t == "HIGH" then Some(HIGH)
    else None
  }

  lemma PriorityNameRoundTrip(p: Priority, t: string)
    ensures ParsePriority(PriorityName(p)) == Some(p)
    ensures ParsePriority(t) == Some(p) <==> t == PriorityName(p)
  {
  }

  function CompletedName(c: CompletedFilter): string {
    match c
    case All => "all"
    case Complete => "complete"
    case Incomplete => "incomplete"
  }

  function ParseCompleted(t: string): (r: Option<CompletedFilter>)
    ensures r.Some? <==> t in {"all", "complete", "incomplete"}
  {
    if t == "all" then Some(All)
    else if t == "complete" then Some(Complete)
    else if t == "incomplete" then Some(Incomplete)
    else None
  }

  lemma CompletedNameRoundTrip(c: CompletedFilter, t: string)
    ensures ParseCompleted(CompletedName(c)) == Some(c)
    ensures ParseCompleted(t) == Some(c) <==> t == CompletedName(c)
  {
  }

  /** The keys of the request bodies, one per field; each stands for the
      JSON member of the same name. */
  datatype BodyKey =
    | NameKey | DescriptionKey | StartKey | EndKey | DurationKey | PriorityKey
    | StatusKey | ArchivedKey | IsDefaultKey | ParentIdKey | ChildrenKey
    | OwnerKey | TagsKey | CompletedAtKey

  /** The JSON member a key stands for. */
  function WireName(k: BodyKey): string {
    match k
    case NameKey => "name"
    case DescriptionKey => "description"
    case StartKey => "start"
    case EndKey => "end"
    case DurationKey => "duration"
    case PriorityKey => "priority"
    case StatusKey => "status"
    case ArchivedKey => "archived"
    case IsDefaultKey => "isDefault"
    case ParentIdKey => "parentId"
    case ChildrenKey => "children"
    case OwnerKey => "owner"
    case TagsKey => "tags"
    case CompletedAtKey => "completedAt"
  }

  /** Every body key. */
  const AllBodyKeys: set<BodyKey> :=
    {NameKey, DescriptionKey, StartKey, EndKey, DurationKey, PriorityKey, StatusKey,
     ArchivedKey, IsDefaultKey, ParentIdKey, ChildrenKey, OwnerKey, TagsKey, CompletedAtKey}

  /** Whether `JSON.stringify` writes key `k` of a create body: `name`
      always, a nullable field unless it is left out (so `null` is
      written), an optional field when it holds a value. */
  predicate CreateSends(r: CreateRequest, k: BodyKey) {
    match k
    case NameKey => true
    case DescriptionKey => !r.description.Absent?
    case StartKey => !r.start.Absent?
    case EndKey => !r.end.Absent?
    case DurationKey => !r.duration.Absent?
    case PriorityKey => r.priority.Some?
    case StatusKey => r.status.Some?
    case ArchivedKey => r.archived.Some?
    case IsDefaultKey => !r.isDefault.Absent?
    case ParentIdKey => !r.parentId.Absent?
    case ChildrenKey => !r.children.Absent?
    case OwnerKey => !r.owner.Absent?
    case TagsKey => !r.tags.Absent?
    case CompletedAtKey => !r.completedAt.Absent?
  }

  /** The same rule for an update body, whose `name` is optional too. */
  predicate UpdateSends(r: UpdateRequest, k: BodyKey) {
    match k
    case NameKey => r.name.Some?
    case DescriptionKey => !r.description.Absent?
    case StartKey => !r.start.Absent?
    case EndKey => !r.end.Absent?
    case DurationKey => !r.duration.Absent?
    case PriorityKey => r.priority.Some?
    case StatusKey => r.status.Some?
    case ArchivedKey => r.archived.Some?
    case IsDefaultKey => !r.isDefault.Absent?
    case ParentIdKey => !r.parentId.Absent?
    case ChildrenKey => !r.children.Absent?
    case OwnerKey => !r.owner.Absent?
    case TagsKey => !r.tags.Absent?
    case CompletedAtKey => !r.completedAt.Absent?
  }

  /** The keys a create body carries when serialised to JSON. */
  function CreateKeys(r: CreateRequest): set<BodyKey> {
    set k | k in AllBodyKeys && CreateSends(r, k)
  }

  /** The keys an update body carries when serialised to JSON. */
  function UpdateKeys(r: UpdateRequest): set<BodyKey> {
    set k | k in AllBodyKeys && UpdateSends(r, k)
  }

  /** A create body with nothing but a name: every other field is optional. */
  function NameOnly(name: string): (r: CreateRequest)
    ensures r.name == name
    ensures CreateKeys(r) == {NameKey}
  {
    CreateRequest(name, Absent, Absent, Absent, Absent, None, None, None,
                  Absent, Absent, Absent, Absent, Absent, Absent)
  }

  /** An update body may leave out every field. */
  const EmptyPatch: UpdateRequest :=
    UpdateRequest(None, Absent, Absent, Absent, Absent, None, None, None,
                  Absent, Absent, Absent, Absent, Absent, Absent)

  /** A patch carrying the status alone. */
  function StatusOnly(s: Status): (r: UpdateRequest)
    ensures r.status == Some(s)
    ensures UpdateKeys(r) == {StatusKey}
  {
    EmptyPatch.(status := Some(s))
  }

  /** `JSON.stringify` of a create body: `name` always; a nullable field
      unless it is left out, so `null` is sent; an optional field exactly
      when it holds a value. */
  lemma CreateKeysSerialised(r: CreateRequest)
    ensures NameKey in CreateKeys(r)
    ensures DescriptionKey in CreateKeys(r) <==> !r.description.Absent?
    ensures StartKey in CreateKeys(r) <==> !r.start.Absent?
    ensures EndKey in CreateKeys(r) <==> !r.end.Absent?
    ensures DurationKey in CreateKeys(r) <==> !r.duration.Absent?
    ensures PriorityKey in CreateKeys(r) <==> r.priority.Some?
    ensures StatusKey in CreateKeys(r) <==> r.status.Some?
    ensures ArchivedKey in CreateKeys(r) <==> r.archived.Some?
    ensures IsDefaultKey in CreateKeys(r) <==> !r.isDefault.Absent?
    ensures ParentIdKey in CreateKeys(r) <==> !r.parentId.Absent?
    ensures ChildrenKey in CreateKeys(r) <==> !r.children.Absent?
    ensures OwnerKey in CreateKeys(r) <==> !r.owner.Absent?
    ensures TagsKey in CreateKeys(r) <==> !r.tags.Absent?
    ensures CompletedAtKey in CreateKeys(r) <==> !r.completedAt.Absent?
  {
  }

  /** `JSON.stringify` of an update body, key by key; the empty patch
      sends no key at all. */
  lemma UpdateKeysSerialised(r: UpdateRequest)
    ensures NameKey in UpdateKeys(r) <==> r.name.Some?
    ensures DescriptionKey in UpdateKeys(r) <==> !r.description.Absent?
    ensures StartKey in UpdateKeys(r) <==> !r.start.Absent?
    ensures EndKey in UpdateKeys(r) <==> !r.end.Absent?
    ensures DurationKey in UpdateKeys(r) <==> !r.duration.Absent?
    ensures PriorityKey in UpdateKeys(r) <==> r.priority.Some?
    ensures StatusKey in UpdateKeys(r) <==> r.status.Some?
    ensures ArchivedKey in UpdateKeys(r) <==> r.archived.Some?
    ensures IsDefaultKey in UpdateKeys(r) <==> !r.isDefault.Absent?
    ensures ParentIdKey in UpdateKeys(r) <==> !r.parentId.Absent?
    ensures ChildrenKey in UpdateKeys(r) <==> !r.children.Absent?
    ensures OwnerKey in UpdateKeys(r) <==> !r.owner.Absent?
    ensures TagsKey in UpdateKeys(r) <==> !r.tags.Absent?
    ensures CompletedAtKey in UpdateKeys(r) <==> !r.completedAt.Absent?
    ensures UpdateKeys(EmptyPatch) == {}
  {
  }
}

=== FILE: wrappers.dfy ===
/** Optional values and success/failure results, used wherever the client
    handles `undefined`/`null` or a rejected promise. */
module Wrappers {

  datatype Option<+T> = None | Some(value: T) {

    /** The value, or `default` when there is none (JavaScript's `x ?? default`). */
    function GetOr(default: T): T {
      match this
      case Some(v) => v
      case None => default
    }
  }

  /** A settled promise: fulfilled with a value or rejected with an error. */
  datatype Result<+T, +E> = Ok(value: T) | Err(error: E)
}
